=== FILE: README.md ===
# 2DEngine ECS core in Dafny

This project models the Entity-Component-System core of the 2DEngine game engine, together with two small pieces of gameplay logic built on it: sprite animation stepping and box collision. Each part is a pure function over an immutable value, and lemmas prove the properties the code provides.

The ECS part covers the following:

- **Component type IDs.** Each component type gets an ID from a shared counter the first time it asks for one.
- **Entity IDs.** A counter hands them out and never reuses one.
- **Signatures.** Each entity and each system has a 32-bit signature, one bit per component type.
- **Component pools.** There is one pool per component type, indexed by entity ID.
- **The system table.** It maps each system type to its required signature and its list of member entities.
- **The pending sets.** One set of entities waits to be added to systems and one waits to be removed; `Update` processes both.

Everything runs in one thread and is deterministic. A failed `assert`, a `std::bitset` exception, or behaviour the C++ standard leaves undefined is an explicit `Err(fault)` in the model (module `Faults`).

The model follows the code as written, including behaviour that looks unintended. The doc comments flag each case, and lemmas exhibit them:

- **IDs are never reused.** There is no free list (`Lifecycle.NoIdReuse`).
- **`AddComponent` and `RemoveComponent` do not update system membership.** Membership changes only in `Update`. `UpdateEntityInSystems` exists, but nothing calls it (`Lifecycle.RunKeepsMembers`).
- **`System::AddEntity` appends duplicates** (`Systems.AddEntityTwiceDuplicates`).
- **`System::RemoveEntity` erases by position.** The position used is the entity's ID, so a destroyed entity can stay a member after `Update` (`Systems.RemoveEntityByPosition`, `Membership.DestroyedEntityCanStay`).
- **`Pool::Insert` is a vector insert.** It shifts the rest of the pool up. Giving entity 0 a component after entity 1 therefore leaves entity 1's slot holding whatever slot 0 held before. For a new pool that is a default-constructed component; otherwise it can be entity 0's earlier component (`Manager.InsertShiftsAnotherEntitysComponent`, `Manager.InsertShiftHandsOverSlotZero`).
- **The `Component` constructor compares the type counter plus one against the signature width,** and it does so after the type has been registered. So `AddComponent` fails once the counter reaches 31, and only 30 component types can be given to entities.

Some source text is mid-refactor, and the model resolves it as follows:

- The component-type counter is declared `IComponent::NumComponents` in `src/ECS/ECS.h:79` but defined as `NumComponentTypes` in `src/ECS/ECS.cpp:4`. The model has one counter.
- The static `Entity::NumEntities` and the member `ECSManager::NumEntities` are bumped together by the only path that creates entities. The model keeps one counter.
- `GetComponent` (`src/ECS/ECS.h:314-321`) does not compile as written. The model reads pool slot `id` of the type's pool, which is what it evidently means.
- `AnimationSystem.cpp` writes `sprite.SourceRect.x`, but `SpriteComponent.h` declares no `SourceRect`. The model gives the sprite the `sourceX` field that the system writes.

The project has these modules:

| module | what it models |
|---|---|
| `Faults` | the ways an operation stops |
| `Signatures` | `std::bitset<32>` as a 32-element `seq<bool>`, and system-to-entity matching |
| `ComponentIds` | `Component<T>::GetID` and its hidden static state |
| `Entities` | entity handles and the ID counter |
| `Pools` | `Pool<T>` |
| `Systems` | `System`, `RequireComponent`, and system construction |
| `Manager` | `ECSManager`'s entity, component and system operations |
| `Membership` | adding entities to systems and removing them, and the flush in `Update` |
| `Lifecycle` | properties across sequences of calls |
| `Animation` | `AnimationSystem::Update` for one entity |
| `BoxCollision` | `DetectCollision` and the pair loop of `BoxCollisionSystem::Update` |

## Model

| member | source | states |
|---|---|---|
| Signatures.Set | src/ECS/ECS.h:293 | Setting bit i adds exactly i to the set of present component IDs. |
| Signatures.Reset | src/ECS/ECS.h:311 | Clearing bit i removes exactly i from the set of present component IDs. |
| Signatures.BitsInjective | src/ECS/ECS.h:24 | A signature is determined by its set bits. |
| Signatures.MatchesIffSubset | src/ECS/ECS.cpp:65 | The test `(sys & ent) == sys` holds exactly when every component the system requires is present on the entity. |
| Signatures.EmptyMatching | src/ECS/ECS.cpp:65 | A system requiring nothing matches every entity. A system matches an entity with no components only if it requires nothing. |
| ComponentIds.GetId | src/ECS/ECS.h:104-108 | The returned ID is the one the table records for the type. A known type gets its old ID and the table does not change. A new type gets the current counter and the counter goes up by one. |
| ComponentIds.GetIdKeepsIds | src/ECS/ECS.h:104-108 | No call changes an ID already handed out. |
| ComponentIds.GetIdValid | src/ECS/ECS.h:104-108 | IDs stay dense (0 up to counter−1) and each belongs to one type. |
| ComponentIds.IssueAll | src/ECS/ECS.h:104-108 | A run of calls returns one ID per call, and the table ends up knowing exactly the old types plus the called ones. |
| ComponentIds.IssueAllKeepsIds | src/ECS/ECS.h:104-108 | A run of calls never changes an existing ID. |
| ComponentIds.IssueAllValid | src/ECS/ECS.h:104-108 | A run of calls keeps IDs dense and one per type. |
| ComponentIds.IssueAllCount | src/ECS/ECS.h:106 | The counter grows by exactly the number of types the table did not know. |
| ComponentIds.IssueAllStable | src/ECS/ECS.h:106-107 | Every call returns the ID its type has in the final table, so a type gets the same ID on every call. |
| ComponentIds.IssueAllDistinct | src/ECS/ECS.h:104-108 | Two calls return the same ID if and only if they are for the same type. |
| ComponentIds.IssueAllFirstUse | src/ECS/ECS.h:106 | IDs are issued in first-use order: the first call for a new type returns the old counter plus the number of new types called before it. |
| ComponentIds.IssueAllPrefix | src/ECS/ECS.h:104-108 | The IDs returned by earlier calls do not depend on later ones. |
| Entities.NewEntity | src/ECS/ECS.h:36-39 | Construction succeeds exactly when the incremented counter stays below MaxNumEntities. The new ID is the old counter value. |
| Entities.OrderIsOnIds | src/ECS/ECS.h:44-46 | Handles are equal exactly when their IDs are. `Entities.Less`, the handle's `<`, is a strict total order on IDs. |
| Entities.NewEntities | src/ECS/ECS.h:36-39 | n successive constructions yield n entities and advance the counter by n. |
| Entities.NewEntitiesIncreasing | src/ECS/ECS.h:36-39 | n constructions succeed exactly when n = 0 or the counter stays below the maximum. They return n entities with strictly increasing IDs, all within [old counter, new counter), and the counter grows by n. |
| Pools.New | src/ECS/ECS.h:150 | A new pool has 100 slots, all default-constructed. |
| Pools.Size | src/ECS/ECS.h:153-154 | `Empty()` holds exactly when `Size()` is zero. |
| Pools.Resize | src/ECS/ECS.h:155 | The pool gets exactly n slots. Shared slots are kept and the new slots are default-constructed. |
| Pools.Clear | src/ECS/ECS.h:156 | The pool becomes empty. |
| Pools.Push | src/ECS/ECS.h:157 | The pool grows by one and the new last slot holds the value. Earlier slots are kept. |
| Pools.Insert | src/ECS/ECS.h:158 | Index idx ≤ size is required. The pool grows by one and slot idx holds the value. Slots below idx are kept and slots from idx on move up by one. |
| Pools.InsertKeepsContents | src/ECS/ECS.h:158 | Insertion adds the value and loses nothing: the contents as a multiset grow by exactly the new value. |
| Pools.InsertMovesOccupant | src/ECS/ECS.h:158 | The old occupant of slot idx is found one slot later, not overwritten. |
| Systems.AddEntity | src/ECS/ECS.cpp:6-9 | The member list grows by one, ends with the entity and keeps its earlier elements. The entity's multiplicity goes up by one; there is no duplicate check. |
| Systems.AddEntityTwiceDuplicates | src/ECS/ECS.cpp:6-9 | Adding the same entity twice leaves it listed twice more than before. |
| Systems.RemoveEntity | src/ECS/ECS.cpp:11-17 | Nothing changes when the list has no more elements than the entity's ID. Otherwise exactly the element at position ID is removed and the others keep their order. |
| Systems.RemoveEntityByPosition | src/ECS/ECS.cpp:13-15 | Removing entity 0 from [1, 0] removes entity 1. Removing entity 1 from [1] leaves it in place. |
| Systems.RequireComponent | src/ECS/ECS.h:364-368 | It succeeds exactly when the type's ID fits the signature. The system's signature then gains exactly that bit, and its members are kept. |
| Systems.Construct | src/ECS/ECS.h:364-368 | A system constructor's run of RequireComponent calls succeeds exactly when every issued ID fits. The system then requires exactly those IDs and has no members. |
| Manager.StartValid | src/ECS/ECS.cpp:3-4 | The registry at program start satisfies the bookkeeping invariant `Manager.Valid`. |
| Manager.ResizeSignatures | src/ECS/ECS.cpp:45 | `resize(n)` yields n signatures. Shared ones are kept and new ones are empty. |
| Manager.CreateEntity | src/ECS/ECS.cpp:37-49 | It fails exactly at the entity limit. The new ID is the old count and indexes the signature table, and the entity becomes pending-add. The new slot is empty when the table grew and earlier signatures are kept. Pools, systems and the pending-remove set do not change. |
| Manager.CreateEntityValid | src/ECS/ECS.cpp:37-49 | Creation keeps the invariant. The new ID differs from every pending one, and its signature is empty. |
| Manager.DestroyEntity | src/ECS/ECS.cpp:51-54 | Only the pending-remove set changes, gaining the entity. |
| Manager.DestroyEntityValid | src/ECS/ECS.cpp:51-54 | Destruction keeps the invariant. |
| Manager.AddComponent | src/ECS/ECS.h:253-298 | It fails exactly when the component constructor's counter check or the bitset width is exceeded. On success, the type's pool exists and its slot at the entity ID holds the value; earlier slots are kept and later ones move up by one. The entity's signature gains exactly that type's bit. Other signatures, other pools, systems and pending sets do not change. |
| Manager.AddComponentValid | src/ECS/ECS.h:253-298 | Adding a component to a created entity keeps the invariant. |
| Manager.HasComponent | src/ECS/ECS.h:300-305 | It fails exactly for an entity outside the signature table or an ID outside the bitset. Otherwise it answers whether the type's bit is set, and only registers the type. |
| Manager.HasComponentValid | src/ECS/ECS.h:300-305 | Asking keeps the invariant. |
| Manager.RemoveComponent | src/ECS/ECS.h:307-312 | It fails in the same cases as HasComponent. Otherwise exactly the type's bit of the entity's signature is cleared. Pools, systems and pending sets do not change. |
| Manager.RemoveComponentValid | src/ECS/ECS.h:307-312 | Removal keeps the invariant. |
| Manager.GetComponent | src/ECS/ECS.h:314-321 | It is defined only when HasComponent answers true, and then returns the pool's slot at the entity ID. |
| Manager.GetComponentIffHas | src/ECS/ECS.h:314-321 | On a valid registry, GetComponent succeeds exactly when HasComponent answers true. |
| Manager.AddThenHas | src/ECS/ECS.h:253-305 | After AddComponent, HasComponent answers true without changing anything, and GetComponent returns the added value. |
| Manager.RemoveThenHasNot | src/ECS/ECS.h:300-317 | After RemoveComponent, HasComponent answers false and GetComponent fails its assertion. |
| Manager.InsertShiftsAnotherEntitysComponent | src/ECS/ECS.h:276-285 | For a type with no pool yet, add its component to entity 1, then to entity 0. Entity 1 still reports the component, but its slot holds a default-constructed one. |
| Manager.InsertShiftHandsOverSlotZero | src/ECS/ECS.h:276-285 | For any registered type, add its component to entity 1, then to entity 0. Entity 1 still reports the component, and its slot holds whatever slot 0 of the pool held before. That can be entity 0's earlier component. |
| Manager.AddSystem | src/ECS/ECS.h:323-333 | It is a no-op when the system exists. Otherwise it succeeds exactly when construction does, and adds the constructed system with no members. Existing systems, entities, signatures and pools do not change. |
| Manager.AddSystemValid | src/ECS/ECS.h:323-333 | Adding a system keeps the invariant. |
| Manager.AddSystemIdempotent | src/ECS/ECS.h:328 | Adding a system a second time changes nothing. |
| Manager.RemoveSystem | src/ECS/ECS.h:335-344 | Afterwards HasSystem is false. Absent systems make it a no-op; other systems and all other state are kept. |
| Manager.RemoveSystemValid | src/ECS/ECS.h:335-344 | Removal keeps the invariant. |
| Manager.HasSystemTracksCalls | src/ECS/ECS.h:346-351 | `HasSystem` is true after a successful AddSystem and false after RemoveSystem. For every other system type, both calls leave its answer unchanged. |
| Manager.GetSystem | src/ECS/ECS.h:353-362 | It returns the registered system exactly when HasSystem holds. |
| Membership.AddToMatching | src/ECS/ECS.cpp:62-69 | Exactly the systems whose signature matches get the entity appended. The others, and every signature, are untouched. |
| Membership.RemoveFromMatching | src/ECS/ECS.cpp:76-83 | Each matching system runs `System::RemoveEntity`, which erases the member at position `e.id`, whichever entity sits there. So matching systems can only lose members. Systems that do not match, or whose list is no longer than the ID, are untouched. |
| Membership.AddEntityToSystems | src/ECS/ECS.cpp:56-70 | It fails its assertion exactly for an entity outside the signature table. Otherwise it adds the entity to the matching systems. |
| Membership.RemoveEntityFromSystems | src/ECS/ECS.cpp:72-84 | It is undefined exactly for an entity outside the signature table. Otherwise each matching system erases its member at position `e.id`, which need not be `e`. |
| Membership.UpdateEntityInSystems | src/ECS/ECS.cpp:86-108 | It is a no-op when the signatures are equal. Otherwise systems matching the old signature run RemoveEntity first. Systems matching the new one then have the entity appended to what is left. A system matching only the new signature keeps all its earlier members. Systems matching neither are untouched. |
| Membership.Ascending | src/ECS/ECS.h:249-250 | An ordered set of entities is iterated once per element, in strictly ascending ID. |
| Membership.AddEach | src/ECS/ECS.cpp:112-115 | The add pass succeeds exactly when every entity indexes the signature table. It only adds the passed entities and keeps the system table's keys and signatures. |
| Membership.AddEachMembers | src/ECS/ECS.cpp:112-115 | The add pass appends to each system exactly the passed entities it matches, in pass order. |
| Membership.RemoveEach | src/ECS/ECS.cpp:118-121 | The remove pass succeeds exactly when every entity indexes the signature table. It keeps the system table's keys and signatures, and member lists can only shrink. |
| Membership.EraseEach | src/ECS/ECS.cpp:11-17 | Running `System::RemoveEntity` for a list of entities keeps the signature and can only drop members. |
| Membership.RemoveEachMembers | src/ECS/ECS.cpp:118-121 | In each system, the remove pass runs `System::RemoveEntity` for exactly the passed entities it matches, in pass order. |
| Membership.Flush | src/ECS/ECS.cpp:110-122 | Update succeeds exactly when every pending entity indexes the signature table. It runs the add pass and then the remove pass, and empties both pending sets. Only systems' members change. |
| Membership.FlushMembers | src/ECS/ECS.cpp:110-122 | For each system, Update first appends the matching pending-add entities in ascending ID. It then runs `System::RemoveEntity` for each matching pending-remove entity in ascending ID. |
| Membership.FlushValid | src/ECS/ECS.cpp:110-122 | On a valid registry, Update always succeeds and keeps the invariant. |
| Membership.FlushAddsMatching | src/ECS/ECS.cpp:112-116 | With nothing pending removal, each system's new members are the old ones plus the matching pending entities, in ascending ID. |
| Membership.FlushIdempotent | src/ECS/ECS.cpp:116-122 | A second Update with nothing pending changes nothing. |
| Membership.DestroyedEntityCanStay | src/ECS/ECS.cpp:118-121 | When it is the only entity pending, a destroyed member whose ID is not below its system's member count is still a member after Update. |
| Lifecycle.Apply | src/ECS/ECS.cpp:37-54 | One registry call other than Update, as a step of a program: create, destroy, add, remove or query a component, add or remove a system. A failed call stops the program. The entity count never goes down. |
| Lifecycle.Run | src/ECS/ECS.cpp:37-54 | A sequence of such calls, stopping at the first failure. The entity count never goes down. |
| Lifecycle.ApplyKeepsMembers | src/ECS/ECS.h:253-344 | A registry call other than Update leaves every system it does not remove exactly as it was. A system the call registers starts with no members. |
| Lifecycle.RunKeepsMembers | src/ECS/ECS.cpp:37-54 | Across any sequence of such calls, a system that no call removes ends exactly as it started. Any other system ends with its old members or, if re-registered, with none. |
| Lifecycle.NoIdReuse | src/ECS/ECS.cpp:37-54 | Create an entity, destroy it, run Update and create another: the second ID is the first plus one. |
| Lifecycle.CreatedEntityInNoSystem | src/ECS/ECS.cpp:37-49 | Start from a valid registry and run any sequence of calls without Update. An entity whose ID is not below the starting entity count, including every entity created on the way, is then in no system, whatever components it was given. |
| Lifecycle.JoinsExactlyMatching | src/ECS/ECS.cpp:56-70 | With nothing pending removal, Update makes a pending non-member a member exactly when the system's required components are a subset of the entity's. |
| Lifecycle.BareEntityJoinsOnlyEmptySystems | src/ECS/ECS.cpp:37-70 | With nothing pending removal, a new entity with no components joins, at the next Update, exactly the systems that require nothing. |
| Animation.WrapInt32 | src/ECS/Systems/AnimationSystem.cpp:33 | Storing into an `int` keeps the value modulo 2^32, and keeps it unchanged when it fits. |
| Animation.SizeTWraps | src/ECS/Systems/AnimationSystem.cpp:33 | The `size_t` product narrowed to `int` equals the 32-bit wrap of the exact product of width and frame − 1. |
| Animation.Advance | src/ECS/Systems/AnimationSystem.cpp:23-42 | A finished or not-due animation is unchanged. Otherwise the frame advances, or wraps to 1 from the last frame, and no other field changes. |
| Animation.Step | src/ECS/Systems/AnimationSystem.cpp:23-45 | A finished or not-due animation leaves both components unchanged. Otherwise the source x is width × (frame − 1) from the frame before the advance, stored as an `int`. |
| Animation.StepKeepsFrameInRange | src/ECS/Systems/AnimationSystem.cpp:32-42 | A frame in 1..numFrames stays in that range. |
| Animation.NonLoopingNeverDecreases | src/ECS/Systems/AnimationSystem.cpp:23-42 | A non-looping animation's frame never decreases and never wraps to 1. |
| Animation.SourceXWithoutOverflow | src/ECS/Systems/AnimationSystem.cpp:33 | When the product fits an `int`, the source x is exactly width × (frame − 1). Negative widths are included. |
| Animation.SourceXWraps | src/ECS/Systems/AnimationSystem.cpp:33 | Frame 2^31 + 1 of a 2-pixel sprite sets the source x to 0. |
| Animation.DefaultAnimationHolds | src/ECS/Systems/AnimationSystem.cpp:23-42 | The default animation (one looping frame) is never finished. Any run of passes leaves it on frame 1, and a due pass sets the source x to 0. |
| Animation.LoopingCycles | src/ECS/Systems/AnimationSystem.cpp:35-42 | After k due passes from a frame c in 1..numFrames, a looping animation shows frame ((c − 1 + k) mod numFrames) + 1. |
| Animation.NonLoopingStops | src/ECS/Systems/AnimationSystem.cpp:23-42 | After k due passes from frame c ≤ numFrames, a non-looping animation shows frame min(c + k, numFrames). |
| BoxCollision.DetectCollision | src/ECS/Systems/BoxCollisionSystem.cpp:32-44 | On each axis, each box starts strictly before the other ends. A collision needs the two widths, and the two heights, to add up to something positive. |
| BoxCollision.DefaultCollidersNeverCollide | src/ECS/Systems/BoxCollisionSystem.cpp:39-44 | Two colliders with the default (zero) size never collide, wherever they are placed. |
| BoxCollision.CollisionSymmetric | src/ECS/Systems/BoxCollisionSystem.cpp:39-44 | The test gives the same answer for (A, B) and (B, A). |
| BoxCollision.TouchingIsNoCollision | src/ECS/Systems/BoxCollisionSystem.cpp:40-43 | Boxes that only touch along an edge do not collide. |
| BoxCollision.SelfCollision | src/ECS/Systems/BoxCollisionSystem.cpp:39-44 | A body collides with an identical one at the same position exactly when width and height are positive. |
| BoxCollision.OffsetIgnored | src/ECS/Systems/BoxCollisionSystem.cpp:39-44 | The collider offset has no effect. |
| BoxCollision.CollisionIffSharedPoint | src/ECS/Systems/BoxCollisionSystem.cpp:39-44 | For boxes of positive size, the test holds exactly when the open boxes share a point. |
| BoxCollision.PairsInRowsTotal | src/ECS/Systems/BoxCollisionSystem.cpp:20-23 | The nested loops over n bodies make n(n−1)/2 tests. |
| BoxCollision.Update | src/ECS/Systems/BoxCollisionSystem.cpp:16-30 | Every pair i < j is tested, each exactly once, in row-major order, and no body is paired with itself. The number of tests is n(n−1)/2. The hits are exactly the tested pairs that collide. Bodies are read-only values. |

## Left out

- SDL window, renderer, input loop, render system and texture loading: these are I/O and foreign calls.
- Logger output: every log call is a no-op here.
- The event bus and the damage system: this is callback dispatch through member-function pointers, not registry bookkeeping.
- Movement physics and all float timing (`SecondsPerFrame`, `NextFrameUpdateTime`, `CoreStatics::Now()`): the animation system's clock test is the `due` argument. The advance of the next update time is not modelled.
- Float rounding in collision and transforms: coordinates are reals and widths are integers converted exactly.
- Memory ownership: the shared pointers, the destructor (`src/ECS/ECS.cpp:24-35`) and pointer casts.
- Each `Entity` holds a copy of its manager, taken at construction (`src/ECS/ECS.h:36`). The forwarders at `src/ECS/ECS.h:371-393` call that copy. The model applies `Manager.AddComponent`, `Manager.RemoveComponent`, `Manager.HasComponent` and `Manager.GetComponent` to the one registry by entity ID, and does not reproduce the copy.
- `Pool::Erase` and `Pool::operator[]` (`src/ECS/ECS.h:159-161`): neither compiles, and nothing calls them.
- `Pool::Get`'s bounds: `Pools.Get` requires an in-range index, where the source reads out of range with undefined behaviour.
- The per-system `Update(DeltaTime)` dispatch at the end of `ECSManager::Update` (`src/ECS/ECS.cpp:124-127`): it is virtual dispatch. The two systems it reaches that belong to this model are modelled directly, in `Animation` and `BoxCollision`.
- BoxCollision.Update: takes the member list as the members' transform and collider values. The source reads them inside `DetectCollision` through four `GetComponent` calls (`src/ECS/Systems/BoxCollisionSystem.cpp:34-37`), each asserting `HasComponent`. Membership does not follow `RemoveComponent`, and removal erases by position, so a member can lack one of these components. The source's pair loop then stops at the failing read; that failure is not modelled.
- The animation system's loop over its members: `Animation.Step` is the body for one member. The loop reads each member's components through `GetComponent`, whose behaviour `Manager` models.
- Manager.GetComponent: models what the function evidently means, because the code as written does not compile. It returns the slot rather than a reference, so writes through the reference are not modelled.
- Manager.HasComponent: returns the updated type table alongside the answer, because asking registers an unseen type; the source method is `const` but the hidden static counter still changes.
- Integer widths in the registry: IDs and counters are unbounded naturals. The source's entity limit is modelled, but a pool index passed as `int` past 2^31 is not.
- Behaviour the code does not have: ID reuse, membership updates from `AddComponent`/`RemoveComponent`, an idempotent `System::AddEntity`, and draw-order sorted insertion.

=== FILE: animation.dfy ===
/**
 * Sprite-sheet animation: each step of the animation system moves a sprite's
 * source rectangle to the current frame and advances the 1-based frame
 * counter, wrapping to 1 after the last frame when the animation loops.
 *
 * The frame clock is left out: whether the next frame is due (the engine
 * compares the SDL clock with the animation's next update time) is the
 * boolean `due`.
 */
module Animation {

  const TwoTo32: int := 0x1_0000_0000
  const TwoTo64: int := 0x1_0000_0000_0000_0000

  /** `int`, 32 bits. */
  type Int32 = x: int | -0x8000_0000 <= x < 0x8000_0000

  /** `size_t`, 64 bits. */
  type SizeT = x: nat | x < TwoTo64

  /** The value of `x` stored into an `int`: the two's-complement wrap to 32 bits. */
  function WrapInt32(x: int): (r: Int32)
    ensures (r - x) % TwoTo32 == 0
    ensures -0x8000_0000 <= x < 0x8000_0000 ==> r == x
  {
    (x + 0x8000_0000) % TwoTo32 - 0x8000_0000
  }

  /** The animation component; the frame timing fields are left out. */
  datatype AnimationComponent = AnimationComponent(numFrames: SizeT, currentFrame: SizeT, frameRate: Int32, shouldLoop: bool)

  /** The fields of the sprite component the animation reads and writes. */
  datatype Sprite = Sprite(width: Int32, height: Int32, sourceX: Int32)

  /** The component's default arguments: one frame, starting at frame 1, five frames per second, looping. */
  const DefaultAnimation: AnimationComponent := AnimationComponent(1, 1, 5, true)

  /** A non-looping animation that reached its last frame is finished and never touched again. */
  predicate Finished(a: AnimationComponent) {
    !a.shouldLoop && a.currentFrame >= a.numFrames
  }

  /** The frame counter after one pass: it advances, or wraps to 1 from the last frame, when due and not finished. */
  function Advance(a: AnimationComponent, due: bool): (r: AnimationComponent)
    ensures r == a.(currentFrame := r.currentFrame)
    ensures Finished(a) || !due ==> r == a
    ensures !Finished(a) && due && a.currentFrame < a.numFrames ==> r.currentFrame == a.currentFrame + 1
    ensures !Finished(a) && due && a.numFrames <= a.currentFrame ==> r.currentFrame == 1
  {
    if Finished(a) || !due then a
    else a.(currentFrame := if a.currentFrame < a.numFrames then a.currentFrame + 1 else 1)
  }

  /**
   * One pass of the animation system over one entity. A finished animation
   * or one whose frame is not due is left alone. Otherwise the source x
   * becomes the width times the zero-based current frame, computed in
   * `size_t` and stored in an `int`, and the frame advances.
   */
  function Step(a: AnimationComponent, s: Sprite, due: bool): (r: (AnimationComponent, Sprite))
    ensures r.0 == Advance(a, due)
    ensures Finished(a) || !due ==> r.1 == s
    ensures !Finished(a) && due ==> r.1 == s.(sourceX := WrapInt32(s.width * (a.currentFrame - 1)))
  {
    if Finished(a) || !due then (a, s)
    else
      var x := SizeTMul(s.width % TwoTo64, (a.currentFrame - 1) % TwoTo64);
      SizeTWraps(s.width, a.currentFrame - 1);
      (Advance(a, due), s.(sourceX := WrapInt32(x)))
  }

  /** `size_t` multiplication. */
  function SizeTMul(x: SizeT, y: SizeT): SizeT {
    (x * y) % TwoTo64
  }

  /** Narrowing a `size_t` product to `int` gives the 32-bit wrap of the exact product. */
  lemma SizeTWraps(w: int, f: int)
    ensures WrapInt32(SizeTMul(w % TwoTo64, f % TwoTo64)) == WrapInt32(w * f)
  {
    var x := SizeTMul(w % TwoTo64, f % TwoTo64);
    assert (x - w * f) % TwoTo32 == 0 by {
      ModProduct(w, f);
    }
    WrapCongruent(x, w * f);
  }

  lemma ModProduct(w: int, f: int)
    ensures ((w % TwoTo64) * (f % TwoTo64) % TwoTo64 - w * f) % TwoTo32 == 0
  {
    var a, b := w % TwoTo64, f % TwoTo64;
    var qa, qb := w / TwoTo64, f / TwoTo64;
    var p := a * b;
    var qp := p / TwoTo64;
    var k := qa * b + a * qb + qa * qb * TwoTo64;
    assert w * f == p + k * TwoTo64 by {
      Expand(a, qa, b, qb, TwoTo64);
    }
    var d := p % TwoTo64 - w * f;
    assert d == -(qp + k) * TwoTo64;
    assert d == (-(qp + k) * TwoTo32) * TwoTo32;
    ModUnique(d, TwoTo32, -(qp + k) * TwoTo32, 0);
  }

  lemma Expand(a: int, qa: int, b: int, qb: int, m: int)
    ensures (a + qa * m) * (b + qb * m) == a * b + (qa * b + a * qb + qa * qb * m) * m
  {
  }

  /** Division with remainder is unique. */
  lemma ModUnique(x: int, n: int, q: int, r: int)
    requires 0 < n && 0 <= r < n && x == q * n + r
    ensures x % n == r && x / n == q
  {
    var q', r' := x / n, x % n;
    if q' > q {
      MulAtLeast(q' - q, n);
      assert false;
    } else if q' < q {
      MulAtLeast(q - q', n);
      assert false;
    }
  }

  lemma {:induction false} MulAtLeast(a: int, n: int)
    requires 1 <= a && 0 < n
    ensures n <= a * n
    decreases a
  {
    if a > 1 {
      MulAtLeast(a - 1, n);
      assert a * n == (a - 1) * n + n;
    }
  }

  lemma WrapCongruent(x: int, y: int)
    requires (x - y) % TwoTo32 == 0
    ensures WrapInt32(x) == WrapInt32(y)
  {
    var q := (x - y) / TwoTo32;
    assert x + 0x8000_0000 == (y + 0x8000_0000) + q * TwoTo32;
  }

  // ------------------------------------------------------------- properties

  /** With at least one frame and the frame in 1..numFrames, a step keeps it there: frames are 1-based. */
  lemma StepKeepsFrameInRange(a: AnimationComponent, s: Sprite, due: bool)
    requires 1 <= a.currentFrame <= a.numFrames
    ensures 1 <= Step(a, s, due).0.currentFrame <= a.numFrames
  {
  }

  /** A non-looping animation never goes back: its frame never decreases and never wraps to 1. */
  lemma NonLoopingNeverDecreases(a: AnimationComponent, s: Sprite, due: bool)
    requires !a.shouldLoop
    ensures a.currentFrame <= Step(a, s, due).0.currentFrame
  {
  }

  /** The source x is exactly width × (frame − 1), from the frame before the advance, when that fits an `int`. */
  lemma SourceXWithoutOverflow(a: AnimationComponent, s: Sprite)
    requires !Finished(a)
    requires -0x8000_0000 <= s.width * (a.currentFrame - 1) < 0x8000_0000
    ensures Step(a, s, true).1.sourceX == s.width * (a.currentFrame - 1)
  {
  }

  /** The product that overflows: frame 2^31 + 1 of a 2-pixel-wide sprite sets the source x to 0. */
  lemma SourceXWraps()
    ensures Step(AnimationComponent(0x1_0000_0000, 0x8000_0001, 5, true), Sprite(2, 2, 7), true).1.sourceX == 0
  {
    assert WrapInt32(2 * 0x8000_0000) == 0;
  }

  /** The animation after the passes `dues`, one per frame of the game loop. */
  function Steps(a: AnimationComponent, s: Sprite, dues: seq<bool>): (r: (AnimationComponent, Sprite))
    ensures r.0 == Frames(a, dues)
    decreases |dues|
  {
    if dues == [] then (a, s)
    else
      var next := Step(a, s, dues[0]);
      Steps(next.0, next.1, dues[1..])
  }

  /** The frame counter alone after the passes `dues`. */
  function Frames(a: AnimationComponent, dues: seq<bool>): (r: AnimationComponent)
    ensures r == a.(currentFrame := r.currentFrame)
    decreases |dues|
  {
    if dues == [] then a else Frames(Advance(a, dues[0]), dues[1..])
  }

  /** The number of passes on which the frame was due. */
  function CountDue(dues: seq<bool>): nat {
    if dues == [] then 0 else (if dues[0] then 1 else 0) + CountDue(dues[1..])
  }

  /**
   * The default animation has one looping frame: it is never finished, any
   * number of passes leaves it on frame 1, and a due pass sets the source x to 0.
   */
  lemma DefaultAnimationHolds(s: Sprite, dues: seq<bool>)
    ensures !Finished(DefaultAnimation)
    ensures Steps(DefaultAnimation, s, dues).0 == DefaultAnimation
    ensures Step(DefaultAnimation, s, true).1.sourceX == 0
  {
    LoopingCycles(DefaultAnimation, s, dues);
  }

  /** A looping animation cycles: after k due passes from frame c it shows frame ((c − 1 + k) mod n) + 1. */
  lemma LoopingCycles(a: AnimationComponent, s: Sprite, dues: seq<bool>)
    requires a.shouldLoop && 1 <= a.currentFrame <= a.numFrames
    ensures Steps(a, s, dues).0.currentFrame == (a.currentFrame - 1 + CountDue(dues)) % a.numFrames + 1
  {
    FramesCycle(a, dues);
  }

  lemma {:induction false} FramesCycle(a: AnimationComponent, dues: seq<bool>)
    requires a.shouldLoop && 1 <= a.currentFrame <= a.numFrames
    ensures Frames(a, dues).currentFrame == (a.currentFrame - 1 + CountDue(dues)) % a.numFrames + 1
    decreases |dues|
  {
    if dues != [] {
      var next := Advance(a, dues[0]);
      FramesCycle(next, dues[1..]);
      assert CountDue(dues) == CountDue(dues[1..]) + (if dues[0] then 1 else 0);
      CycleStep(a.currentFrame, a.numFrames, CountDue(dues[1..]), dues[0],
        next.currentFrame, Frames(next, dues[1..]).currentFrame);
    }
  }

  /** One pass of a looping animation is one step along the cycle of frames when it is due, and none otherwise. */
  lemma CycleStep(c: int, n: int, k: int, due: bool, next: int, after: int)
    requires 1 <= c <= n
    requires next == if due then (if c < n then c + 1 else 1) else c
    requires after == (next - 1 + k) % n + 1
    ensures after == (c - 1 + (k + if due then 1 else 0)) % n + 1
  {
    if due && c == n {
      ModShift(k, n);
    }
  }

  lemma ModShift(k: int, n: int)
    requires 0 < n
    ensures (n + k) % n == k % n
  {
    ModUnique(n + k, n, k / n + 1, k % n);
  }

  /** A non-looping animation counts up by one per due pass and stops at its last frame. */
  lemma NonLoopingStops(a: AnimationComponent, s: Sprite, dues: seq<bool>)
    requires !a.shouldLoop && a.currentFrame <= a.numFrames
    ensures Steps(a, s, dues).0.currentFrame == Min(a.currentFrame + CountDue(dues), a.numFrames)
  {
    FramesStop(a, dues);
  }

  lemma {:induction false} FramesStop(a: AnimationComponent, dues: seq<bool>)
    requires !a.shouldLoop && a.currentFrame <= a.numFrames
    ensures Frames(a, dues).currentFrame == Min(a.currentFrame + CountDue(dues), a.numFrames)
    decreases |dues|
  {
    if dues != [] {
      FramesStop(Advance(a, dues[0]), dues[1..]);
    }
  }

  function Min(x: int, y: int): int {
    if x < y then x else y
  }
}

=== FILE: box_collision.dfy ===
/**
 * Axis-aligned box collision: the box collision system tests every
 * unordered pair of its members for overlap and logs a warning per hit.
 *
 * Positions are the transform's `float` vector, taken here as reals: float
 * rounding of `x + Width` is not modelled. The collider's offset is part of
 * the component but the test does not read it.
 */
module BoxCollision {

  datatype Vec2 = Vec2(x: real, y: real)

  datatype Transform = Transform(position: Vec2, scale: Vec2, rotation: real)

  datatype BoxCollider = BoxCollider(width: int, height: int, offset: Vec2)

  /** The two components the system requires, as read for one member. */
  datatype Body = Body(transform: Transform, collider: BoxCollider)

  /** The transform's default arguments: at the origin, unit scale, no rotation. */
  const DefaultTransform: Transform := Transform(Vec2(0.0, 0.0), Vec2(1.0, 1.0), 0.0)

  /** The collider's default arguments: an empty box with no offset. */
  const DefaultCollider: BoxCollider := BoxCollider(0, 0, Vec2(0.0, 0.0))

  /**
   * `DetectCollision`: on each axis, each box starts strictly before the
   * other one ends. Two boxes can only collide when their widths, and
   * their heights, add up to something positive.
   */
  function DetectCollision(a: Body, b: Body): (r: bool)
    ensures r ==> a.collider.width + b.collider.width > 0 && a.collider.height + b.collider.height > 0
  {
    var pa, pb := a.transform.position, b.transform.position;
    && pa.x < pb.x + b.collider.width as real
    && pb.x < pa.x + a.collider.width as real
    && pa.y < pb.y + b.collider.height as real
    && pb.y < pa.y + a.collider.height as real
  }

  /** `p` lies strictly inside the box of `b`. */
  predicate Inside(b: Body, p: Vec2) {
    var o := b.transform.position;
    && o.x < p.x < o.x + b.collider.width as real
    && o.y < p.y < o.y + b.collider.height as real
  }

  // ------------------------------------------------------------- properties

  /** Collision does not depend on the order of the two bodies. */
  lemma CollisionSymmetric(a: Body, b: Body)
    ensures DetectCollision(a, b) == DetectCollision(b, a)
  {
  }

  /** Boxes that only touch along an edge do not collide. */
  lemma TouchingIsNoCollision(a: Body, b: Body)
    requires a.transform.position.x + a.collider.width as real == b.transform.position.x
      || a.transform.position.y + a.collider.height as real == b.transform.position.y
    ensures !DetectCollision(a, b) && !DetectCollision(b, a)
  {
  }

  /** A body collides with a copy of itself exactly when its box has positive width and height. */
  lemma SelfCollision(a: Body)
    ensures DetectCollision(a, a) <==> a.collider.width > 0 && a.collider.height > 0
  {
  }

  /** Two default (empty) colliders never collide, wherever their transforms place them. */
  lemma DefaultCollidersNeverCollide(ta: Transform, tb: Transform)
    ensures !DetectCollision(Body(ta, DefaultCollider), Body(tb, DefaultCollider))
    ensures !DetectCollision(Body(DefaultTransform, DefaultCollider), Body(DefaultTransform, DefaultCollider))
  {
  }

  /** The collider offset has no effect on the test. */
  lemma OffsetIgnored(a: Body, b: Body, oa: Vec2, ob: Vec2)
    ensures DetectCollision(a.(collider := a.collider.(offset := oa)), b.(collider := b.collider.(offset := ob)))
      == DetectCollision(a, b)
  {
  }

  /**
   * For boxes of positive size, the test holds exactly when the two open
   * boxes share a point.
   */
  lemma CollisionIffSharedPoint(a: Body, b: Body)
    requires a.collider.width > 0 && a.collider.height > 0
    requires b.collider.width > 0 && b.collider.height > 0
    ensures DetectCollision(a, b) <==> exists p :: Inside(a, p) && Inside(b, p)
  {
    if DetectCollision(a, b) {
      var pa, pb := a.transform.position, b.transform.position;
      var x := (Max(pa.x, pb.x) + Min(pa.x + a.collider.width as real, pb.x + b.collider.width as real)) / 2.0;
      var y := (Max(pa.y, pb.y) + Min(pa.y + a.collider.height as real, pb.y + b.collider.height as real)) / 2.0;
      assert Inside(a, Vec2(x, y)) && Inside(b, Vec2(x, y));
    }
  }

  function Max(x: real, y: real): real {
    if x < y then y else x
  }

  function Min(x: real, y: real): real {
    if x < y then x else y
  }

  // ------------------------------------------------------------ pair sweep

  /** Pair `p` comes strictly before pair `q` in row-major order. */
  predicate Before(p: (nat, nat), q: (nat, nat)) {
    p.0 < q.0 || (p.0 == q.0 && p.1 < q.1)
  }

  /** The number of pairs the sweep over `n` bodies tests in its first `i` rows. */
  function PairsInRows(i: nat, n: nat): nat
    requires i <= n
  {
    if i == 0 then 0 else PairsInRows(i - 1, n) + (n - i)
  }

  /** The sweep over `n` bodies tests n(n−1)/2 pairs. */
  lemma {:induction false} PairsInRowsTotal(i: nat, n: nat)
    requires i <= n
    ensures 2 * PairsInRows(i, n) == i * (2 * n - i - 1)
  {
    if i > 0 {
      PairsInRowsTotal(i - 1, n);
      assert (i - 1) * (2 * n - (i - 1) - 1) + 2 * (n - i) == i * (2 * n - i - 1);
    }
  }

  /**
   * `BoxCollisionSystem::Update`: the pairs (i, j) with i < j in the order
   * the nested loops test them, and those that collide, one warning each.
   * The bodies are values: the sweep reads components and writes none.
   */
  method Update(bodies: seq<Body>) returns (tested: seq<(nat, nat)>, hits: seq<(nat, nat)>)
    ensures forall k | 0 <= k < |tested| :: tested[k].0 < tested[k].1 < |bodies|
    ensures forall i, j | 0 <= i < j < |bodies| :: (i, j) in tested
    ensures forall k1, k2 | 0 <= k1 < k2 < |tested| :: Before(tested[k1], tested[k2])
    ensures 2 * |tested| == |bodies| * (|bodies| - 1)
    ensures forall p :: p in hits <==> p in tested && DetectCollision(bodies[p.0], bodies[p.1])
  {
    var n := |bodies|;
    tested, hits := [], [];
    var i := 0;
    while i < n
      invariant 0 <= i <= n
      invariant |tested| == PairsInRows(i, n)
      invariant forall k | 0 <= k < |tested| :: tested[k].0 < i && tested[k].0 < tested[k].1 < n
      invariant forall a, b | 0 <= a < i && a < b < n :: (a, b) in tested
      invariant forall k1, k2 | 0 <= k1 < k2 < |tested| :: Before(tested[k1], tested[k2])
      invariant forall p :: p in hits <==> p in tested && DetectCollision(bodies[p.0], bodies[p.1])
    {
      var j := i + 1;
      while j < n
        invariant i + 1 <= j <= n
        invariant |tested| == PairsInRows(i, n) + (j - (i + 1))
        invariant forall k | 0 <= k < |tested| :: Before(tested[k], (i, j)) && tested[k].0 < tested[k].1 < n
        invariant forall a, b | (0 <= a < i && a < b < n) || (a == i && i < b < j) :: (a, b) in tested
        invariant forall k1, k2 | 0 <= k1 < k2 < |tested| :: Before(tested[k1], tested[k2])
        invariant forall p :: p in hits <==> p in tested && DetectCollision(bodies[p.0], bodies[p.1])
      {
        tested := tested + [(i, j)];
        if DetectCollision(bodies[i], bodies[j]) {
          hits := hits + [(i, j)];
        }
        j := j + 1;
      }
      i := i + 1;
    }
    PairsInRowsTotal(n, n);
  }
}

=== FILE: component_ids.dfy ===
/**
 * Component type IDs: `Component<T>::GetID` keeps, per component type, a
 * function-local static initialised from a shared counter the first time the
 * function runs for that type. The model makes the hidden static state
 * explicit as a table from type name to ID plus the counter.
 *
 * The header names the counter `IComponent::NumComponents` while the source
 * file defines `IComponent::NumComponentTypes`; both denote the one counter
 * modelled by `next`.
 */
module ComponentIds {

  /** A component type, identified by its name. */
  type ComponentName = string

  datatype TypeIds = TypeIds(ids: map<ComponentName, nat>, next: nat)

  /** The state at program start: no type has asked for its ID yet. */
  const Fresh: TypeIds := TypeIds(map[], 0)

  /** IDs are exactly 0 .. next-1, each owned by one type. */
  predicate Valid(t: TypeIds) {
    && (forall k | k in t.ids :: t.ids[k] < t.next)
    && (forall k1, k2 | k1 in t.ids && k2 in t.ids && t.ids[k1] == t.ids[k2] :: k1 == k2)
    && |t.ids| == t.next
  }

  /** The set of elements of a sequence. */
  function Elems<T>(s: seq<T>): set<T> {
    set x | x in s
  }

  /**
   * `Component<T>::GetID()`: the type's ID, handing out the counter and
   * bumping it on the type's first call. Returns the ID and the new table.
   */
  function GetId(t: TypeIds, k: ComponentName): (r: (nat, TypeIds))
    ensures k in r.1.ids && r.1.ids[k] == r.0
    ensures k in t.ids ==> r.1 == t
    ensures k !in t.ids ==> r.0 == t.next && r.1.next == t.next + 1
    ensures r.1.ids.Keys == t.ids.Keys + {k}
  {
    if k in t.ids then
      (t.ids[k], t)
    else
      (t.next, TypeIds(t.ids[k := t.next], t.next + 1))
  }

  /** GetID never changes an ID it already handed out: every type keeps its first ID. */
  lemma GetIdKeepsIds(t: TypeIds, k: ComponentName)
    ensures forall k2 | k2 in t.ids :: GetId(t, k).1.ids[k2] == t.ids[k2]
    ensures k in t.ids ==> GetId(t, k) == (t.ids[k], t)
  {
  }

  /** GetID keeps the IDs dense and one per type. */
  lemma GetIdValid(t: TypeIds, k: ComponentName)
    requires Valid(t)
    ensures Valid(GetId(t, k).1)
  {
  }

  /**
   * The IDs returned by calling GetID for each type of `ks` in turn, and the
   * final table, which knows every type it knew plus every type called.
   */
  function IssueAll(t: TypeIds, ks: seq<ComponentName>): (r: (seq<nat>, TypeIds))
    ensures |r.0| == |ks|
    ensures r.1.ids.Keys == t.ids.Keys + Elems(ks)
    decreases |ks|
  {
    if ks == [] then ([], t)
    else
      var before := IssueAll(t, ks[..|ks| - 1]);
      var last := GetId(before.1, ks[|ks| - 1]);
      assert ks == ks[..|ks| - 1] + [ks[|ks| - 1]];
      assert Elems(ks) == Elems(ks[..|ks| - 1]) + {ks[|ks| - 1]};
      (before.0 + [last.0], last.1)
  }

  /** A run of calls never changes an ID already handed out. */
  lemma {:induction false} IssueAllKeepsIds(t: TypeIds, ks: seq<ComponentName>)
    ensures forall k | k in t.ids :: IssueAll(t, ks).1.ids[k] == t.ids[k]
    decreases |ks|
  {
    if ks != [] {
      IssueAllKeepsIds(t, ks[..|ks| - 1]);
      GetIdKeepsIds(IssueAll(t, ks[..|ks| - 1]).1, ks[|ks| - 1]);
    }
  }

  /** A run of calls keeps the IDs dense and one per type. */
  lemma {:induction false} IssueAllValid(t: TypeIds, ks: seq<ComponentName>)
    requires Valid(t)
    ensures Valid(IssueAll(t, ks).1)
    decreases |ks|
  {
    if ks != [] {
      IssueAllValid(t, ks[..|ks| - 1]);
      GetIdValid(IssueAll(t, ks[..|ks| - 1]).1, ks[|ks| - 1]);
    }
  }

  /** The number of calls in `ks` that are the first use of a type the table `t` did not know. */
  function Unseen(t: TypeIds, ks: seq<ComponentName>): nat
    decreases |ks|
  {
    if ks == [] then 0
    else
      var p, k := ks[..|ks| - 1], ks[|ks| - 1];
      Unseen(t, p) + (if k in t.ids || k in p then 0 else 1)
  }

  /** The counter grows by exactly the number of types the table did not know. */
  lemma {:induction false} IssueAllCount(t: TypeIds, ks: seq<ComponentName>)
    ensures IssueAll(t, ks).1.next == t.next + Unseen(t, ks)
    decreases |ks|
  {
    if ks != [] {
      var p, k := ks[..|ks| - 1], ks[|ks| - 1];
      IssueAllCount(t, p);
      assert k in IssueAll(t, p).1.ids <==> k in t.ids || k in Elems(p);
    }
  }

  /** Every call for a type returns the ID that type has in the final table: IDs are stable. */
  lemma {:induction false} IssueAllStable(t: TypeIds, ks: seq<ComponentName>)
    ensures forall i | 0 <= i < |ks| :: ks[i] in IssueAll(t, ks).1.ids && IssueAll(t, ks).0[i] == IssueAll(t, ks).1.ids[ks[i]]
    decreases |ks|
  {
    if ks != [] {
      var p := ks[..|ks| - 1];
      IssueAllStable(t, p);
      var (ids0, t0) := IssueAll(t, p);
      var (id, t1) := GetId(t0, ks[|ks| - 1]);
      forall i | 0 <= i < |ks| - 1
        ensures ks[i] in t1.ids && (ids0 + [id])[i] == t1.ids[ks[i]]
      {
        assert ks[i] == p[i];
      }
    }
  }

  /** Two calls return the same ID exactly when they are for the same type. */
  lemma IssueAllDistinct(t: TypeIds, ks: seq<ComponentName>)
    requires Valid(t)
    ensures forall i, j | 0 <= i < |ks| && 0 <= j < |ks| :: IssueAll(t, ks).0[i] == IssueAll(t, ks).0[j] <==> ks[i] == ks[j]
  {
    IssueAllStable(t, ks);
    IssueAllValid(t, ks);
  }

  /**
   * IDs are handed out in first-use order: the first call for a type the
   * table did not know returns the old counter plus the number of new types
   * seen before it. From `Fresh`, the types get 0, 1, 2, ... in first-use order.
   */
  lemma IssueAllFirstUse(t: TypeIds, ks: seq<ComponentName>)
    ensures forall i | 0 <= i < |ks| && ks[i] !in t.ids && ks[i] !in ks[..i] ::
      IssueAll(t, ks).0[i] == t.next + Unseen(t, ks[..i])
  {
    forall i | 0 <= i < |ks| && ks[i] !in t.ids && ks[i] !in ks[..i] {
      IssueAllFirstUseAt(t, ks, i);
    }
  }

  lemma IssueAllFirstUseAt(t: TypeIds, ks: seq<ComponentName>, i: nat)
    requires i < |ks| && ks[i] !in t.ids && ks[i] !in ks[..i]
    ensures IssueAll(t, ks).0[i] == t.next + Unseen(t, ks[..i])
  {
    IssueAllPrefix(t, ks, i + 1);
    var q := ks[..i + 1];
    assert q[..|q| - 1] == ks[..i] && q[|q| - 1] == ks[i];
    IssueAllCount(t, ks[..i]);
    assert ks[i] !in Elems(ks[..i]);
    assert IssueAll(t, q).0[i] == IssueAll(t, ks[..i]).1.next;
  }

  /** The IDs returned for a prefix of the calls do not depend on the calls after it. */
  lemma {:induction false} IssueAllPrefix(t: TypeIds, ks: seq<ComponentName>, n: nat)
    requires n <= |ks|
    ensures IssueAll(t, ks[..n]).0 == IssueAll(t, ks).0[..n]
    decreases |ks|
  {
    if n < |ks| {
      var p := ks[..|ks| - 1];
      IssueAllPrefix(t, p, n);
      assert p[..n] == ks[..n];
    } else {
      assert ks[..n] == ks;
    }
  }
}

=== FILE: entities.dfy ===
/**
 * Entities: an entity is its ID. The C++ handle also carries a pointer to its
 * manager, but it holds a *copy* of the manager made when the entity is
 * constructed (a shared_ptr to `ECSManager(*Owner)`), so that its forwarding
 * methods act on a snapshot instead of the registry that created it. The model
 * does not reproduce that copy: the forwarding methods are modelled as the
 * registry's own operations applied to the entity's ID.
 */
module Entities {
  import opened Faults

  /** CoreStatics::MaxNumEntities is `(unsigned int)-1`. */
  const MaxNumEntities: nat := 0xFFFF_FFFF

  /** Equality and `<` on the C++ handle compare `EntityID` alone, so the ID is all the model keeps. */
  datatype Entity = Entity(id: nat)

  /** `operator<`: the order `std::set<Entity>` iterates in. */
  predicate Less(a: Entity, b: Entity) {
    a.id < b.id
  }

  /** Handles are equal exactly when their IDs are, and `<` is a strict total order. */
  lemma OrderIsOnIds(a: Entity, b: Entity, c: Entity)
    ensures a == b <==> a.id == b.id
    ensures !Less(a, a)
    ensures a != b ==> Less(a, b) || Less(b, a)
    ensures Less(a, b) && Less(b, c) ==> Less(a, c)
  {
  }

  /**
   * The Entity constructor: takes the counter's value as the ID and bumps the
   * counter, then asserts that the bumped counter is still below
   * MaxNumEntities. IDs are never reused: there is no free list.
   * Returns the new entity and the new counter.
   */
  function NewEntity(numEntities: nat): (r: Result<(Entity, nat)>)
    ensures r.Ok? <==> numEntities + 1 < MaxNumEntities
    ensures r.Ok? ==> r.value.0.id == numEntities && r.value.1 > r.value.0.id
  {
    var e := Entity(numEntities);
    var bumped := numEntities + 1;
    if bumped < MaxNumEntities then Ok((e, bumped)) else Err(TooManyEntities)
  }

  /** The entities of `n` successive constructions, starting from counter `c`, and the final counter. */
  function NewEntities(c: nat, n: nat): (r: Result<(seq<Entity>, nat)>)
    ensures r.Ok? ==> |r.value.0| == n && r.value.1 == c + n
    decreases n
  {
    if n == 0 then Ok(([], c))
    else
      match NewEntity(c)
      case Err(f) => Err(f)
      case Ok((e, c')) =>
        match NewEntities(c', n - 1)
        case Err(f) => Err(f)
        case Ok((es, c'')) => Ok(([e] + es, c''))
  }

  /**
   * Successive constructions hand out strictly increasing, hence pairwise
   * distinct, IDs, all at or above the starting counter and below the final
   * one; they fail only when the counter would reach MaxNumEntities.
   */
  lemma {:induction false} NewEntitiesIncreasing(c: nat, n: nat)
    ensures NewEntities(c, n).Ok? <==> n == 0 || c + n < MaxNumEntities
    ensures NewEntities(c, n).Ok? ==>
      var (es, c') := NewEntities(c, n).value;
      && |es| == n && c' == c + n
      && (forall i | 0 <= i < n :: c <= es[i].id < c')
      && (forall i, j | 0 <= i < j < n :: es[i].id < es[j].id)
    decreases n
  {
    if n > 0 {
      NewEntitiesIncreasing(c + 1, n - 1);
    }
  }
}

=== FILE: faults.dfy ===
/**
 * Outcomes of ECS operations. The engine stops an operation in one of three
 * ways: a failed `assert`, an exception thrown by `std::bitset`, or
 * behaviour the C++ standard leaves undefined (an index past the end of a
 * vector, a null pool). The model reports each of them as an explicit
 * `Err` rather than pretending the operation went through.
 */
module Faults {

  datatype Fault =
    | TooManyEntities        // the Entity constructor's assertion against MaxNumEntities
    | TooManyComponentTypes  // the Component constructor's assertion against the signature width
    | BitOutOfRange          // std::bitset::set / test with a position >= the width
    | UnknownEntity          // the assertion that an entity ID indexes the signature table
    | MissingComponent       // GetComponent's assertion that HasComponent holds
    | InvalidAccess          // undefined behaviour: reading past the end or through a null pool
    | MissingSystem          // GetSystem reaching its end without a return statement

  datatype Result<+T> = Ok(value: T) | Err(fault: Fault)
}

=== FILE: lifecycle.dfy ===
/**
 * Properties of the registry across several calls: entity IDs are never
 * reused, system member lists change only in Update, and a pending entity
 * joins, at the next Update, exactly the systems whose signature it matches.
 */
module Lifecycle {
  import opened Faults
  import opened Signatures
  import ComponentIds
  import opened Entities
  import opened Systems
  import opened Manager
  import opened Membership

  /** A registry call other than Update. */
  datatype Op<V> =
    | Create
    | Destroy(e: Entity)
    | AddComp(e: Entity, k: ComponentIds.ComponentName, v: V)
    | RemoveComp(e: Entity, k: ComponentIds.ComponentName)
    | HasComp(e: Entity, k: ComponentIds.ComponentName)
    | AddSys(name: SystemName, required: seq<ComponentIds.ComponentName>)
    | RemoveSys(name: SystemName)

  /** The registry after one call; a failed call stops the program. */
  function Apply<V>(r: Registry<V>, op: Op<V>): (res: Result<Registry<V>>)
    ensures res.Ok? ==> r.numEntities <= res.value.numEntities
  {
    match op
    case Create =>
      (match CreateEntity(r) case Err(f) => Err(f) case Ok(created) => Ok(created.1))
    case Destroy(e) => Ok(DestroyEntity(r, e))
    case AddComp(e, k, v) => AddComponent(r, e, k, v)
    case RemoveComp(e, k) => RemoveComponent(r, e, k)
    case HasComp(e, k) =>
      (match HasComponent(r, e, k) case Err(f) => Err(f) case Ok(answer) => Ok(answer.1))
    case AddSys(name, required) => AddSystem(r, name, required)
    case RemoveSys(name) => Ok(RemoveSystem(r, name))
  }

  /** The registry after the calls `ops` in order, stopping at the first failure. */
  function Run<V>(r: Registry<V>, ops: seq<Op<V>>): (res: Result<Registry<V>>)
    ensures res.Ok? ==> r.numEntities <= res.value.numEntities
    decreases |ops|
  {
    if ops == [] then Ok(r)
    else
      match Apply(r, ops[0])
      case Err(f) => Err(f)
      case Ok(next) => Run(next, ops[1..])
  }

  /** Each system's members are as before, or none when the system was (re)registered on the way. */
  predicate MembersKept(before: map<SystemName, System>, after: map<SystemName, System>) {
    forall n | n in after :: after[n].entities == [] || (n in before && after[n].entities == before[n].entities)
  }

  /** None of the calls `ops` removes the system `n`. */
  predicate NeverRemoved<V>(ops: seq<Op<V>>, n: SystemName) {
    forall i | 0 <= i < |ops| :: !(ops[i].RemoveSys? && ops[i].name == n)
  }

  /**
   * A call other than Update leaves every system it does not remove exactly
   * as it was; a system it registers starts with no members.
   */
  lemma ApplyKeepsMembers<V>(r: Registry<V>, op: Op<V>)
    requires Apply(r, op).Ok?
    ensures var after := Apply(r, op).value.systems;
      && (forall n | n in r.systems && !(op.RemoveSys? && op.name == n) :: n in after && after[n] == r.systems[n])
      && (forall n | n in after && n in r.systems :: after[n] == r.systems[n])
      && (forall n | n in after && n !in r.systems :: after[n].entities == [])
  {
  }

  /**
   * Outside Update no call adds an entity to, or removes one from, any
   * system: a system no call removes ends exactly as it started, and any
   * other system ends as it was or, re-registered, with no members.
   */
  lemma {:induction false} RunKeepsMembers<V>(r: Registry<V>, ops: seq<Op<V>>)
    requires Run(r, ops).Ok?
    ensures MembersKept(r.systems, Run(r, ops).value.systems)
    ensures forall n | n in r.systems && NeverRemoved(ops, n) :: n in Run(r, ops).value.systems && Run(r, ops).value.systems[n] == r.systems[n]
    decreases |ops|
  {
    if ops != [] {
      var next := Apply(r, ops[0]).value;
      ApplyKeepsMembers(r, ops[0]);
      RunKeepsMembers(next, ops[1..]);
      forall n | n in r.systems && NeverRemoved(ops, n)
        ensures NeverRemoved(ops[1..], n)
      {
        assert !(ops[0].RemoveSys? && ops[0].name == n);
        forall i | 0 <= i < |ops| - 1 ensures !(ops[1..][i].RemoveSys? && ops[1..][i].name == n) {
          assert ops[1..][i] == ops[i + 1];
        }
      }
    }
  }

  /** Successive created entities get consecutive IDs; a destroyed entity's ID is not handed out again. */
  lemma NoIdReuse<V>(r: Registry<V>)
    requires CreateEntity(r).Ok?
    requires
      var first := CreateEntity(r).value;
      Flush(DestroyEntity(first.1, first.0)).Ok? && CreateEntity(Flush(DestroyEntity(first.1, first.0)).value).Ok?
    ensures
      var first := CreateEntity(r).value;
      var second := CreateEntity(Flush(DestroyEntity(first.1, first.0)).value).value;
      second.0.id == first.0.id + 1 && second.0 != first.0
  {
  }

  /**
   * An entity created since the last Update is in no system, whatever
   * components it has been given since: membership waits for the next
   * Update.
   */
  lemma CreatedEntityInNoSystem<V>(r: Registry<V>, ops: seq<Op<V>>, e: Entity)
    requires Valid(r) && Run(r, ops).Ok? && r.numEntities <= e.id
    ensures forall n | n in Run(r, ops).value.systems :: e !in Run(r, ops).value.systems[n].entities
  {
    RunKeepsMembers(r, ops);
  }

  /**
   * With nothing pending removal, a pending entity that is not yet a member
   * of a system is a member after Update exactly when the system's
   * signature is a subset of the entity's.
   */
  lemma JoinsExactlyMatching<V>(r: Registry<V>, e: Entity, n: SystemName)
    requires Valid(r) && r.toRemove == {} && e in r.toAdd
    requires n in r.systems && e !in r.systems[n].entities
    ensures e in Flush(r).value.systems[n].entities
      <==> Bits(r.systems[n].signature) <= Bits(r.signatures[e.id])
  {
    var adds := Ascending(r.toAdd);
    FlushAddsMatching(r, n);
    MatchingMembers(r.systems[n].signature, r.signatures, adds);
    MatchesIffSubset(r.systems[n].signature, r.signatures[e.id]);
  }

  /** An entity created and given no component joins, at the next Update, exactly the systems requiring nothing. */
  lemma BareEntityJoinsOnlyEmptySystems<V>(r: Registry<V>, n: SystemName)
    requires Valid(r) && r.toRemove == {} && n in r.systems && CreateEntity(r).Ok?
    ensures
      var created := CreateEntity(r).value;
      MemberOf(created.0, Flush(created.1).value, n) <==> r.systems[n].signature == Empty
  {
    var e, r1 := CreateEntity(r).value.0, CreateEntity(r).value.1;
    CreateEntityValid(r);
    assert Run(r, [Create]) == Ok(r1);
    CreatedEntityInNoSystem(r, [Create], e);
    JoinsExactlyMatching(r1, e, n);
    EmptyMatching(r.systems[n].signature);
    MatchesIffSubset(r.systems[n].signature, Empty);
    MatchesIffSubset(r.systems[n].signature, r1.signatures[e.id]);
  }

  /** `e` is a member of the registered system `n`. */
  predicate MemberOf<V>(e: Entity, r: Registry<V>, n: SystemName) {
    n in r.systems && e in r.systems[n].entities
  }
}

=== FILE: manager.dfy ===
/**
 * The ECSManager: component pools, per-entity signatures, the system table
 * and the two pending-entity sets, together with the process-wide counters
 * (component-type IDs and entity IDs) it relies on.
 *
 * Every operation is a function from the old registry to the new one. Each
 * operation templated on a component or system type takes that type's name.
 * Logging calls are no-ops here.
 *
 * Behaviour kept as written:
 *  - AddComponent and RemoveComponent change the signature but not system
 *    membership; nothing calls UpdateEntityInSystems.
 *  - AddComponent stores through Pool::Insert, which shifts every later slot
 *    of the pool up by one instead of writing the entity's slot.
 *  - HasComponent, RemoveComponent and GetComponent ask for the type's ID,
 *    and so register a type that has never been seen.
 */
module Manager {
  import opened Faults
  import opened Signatures
  import opened ComponentIds
  import opened Entities
  import opened Pools
  import opened Systems

  datatype Registry<V> = Registry(
    types: TypeIds,                   // Component<T>::GetID's statics
    numEntities: nat,                 // Entity::NumEntities, equal to ECSManager::NumEntities
    pools: seq<PoolRef<V>>,           // ComponentPools, indexed by component ID
    signatures: seq<Signature>,       // EntityComponentSignatures, indexed by entity ID
    systems: map<SystemName, System>, // Systems, keyed by system type
    toAdd: set<Entity>,               // EntitiesToBeAdded
    toRemove: set<Entity>)            // EntitiesToBeRemoved

  /** The registry at program start. */
  function Start<V>(): Registry<V> {
    Registry(Fresh, 0, [], [], map[], {}, {})
  }

  /** The signature the table holds for `e`, or the default one a resize would create for it. */
  function SignatureOf<V>(r: Registry<V>, e: Entity): Signature {
    if e.id < |r.signatures| then r.signatures[e.id] else Empty
  }

  /** The pool for component ID `c`, or the pool AddComponent would create for it. */
  function PoolOf<V>(r: Registry<V>, c: nat): Pool<V> {
    if c < |r.pools| && r.pools[c].Live? then r.pools[c].pool else New()
  }

  /** `n` null pool pointers. */
  function Nulls<V>(n: nat): (r: seq<PoolRef<V>>)
    ensures |r| == n && forall i | 0 <= i < n :: r[i] == Null
  {
    if n == 0 then [] else Nulls(n - 1) + [Null]
  }

  /** `vector<Signature>::resize(n)`: truncate, or extend with default signatures. */
  function ResizeSignatures(sigs: seq<Signature>, n: nat): (r: seq<Signature>)
    ensures |r| == n
    ensures forall i | 0 <= i < n && i < |sigs| :: r[i] == sigs[i]
    ensures forall i | |sigs| <= i < n :: r[i] == Empty
  {
    if n <= |sigs| then sigs[..n] else ResizeSignatures(sigs, n - 1) + [Empty]
  }

  /**
   * The registry's bookkeeping is consistent: type IDs are dense, the
   * signature table has one slot per entity ever created, every set bit names
   * a registered type whose pool has a slot for the entity, and every pending
   * or member entity was created by this registry.
   */
  predicate Valid<V>(r: Registry<V>) {
    && ComponentIds.Valid(r.types)
    && r.numEntities < MaxNumEntities
    && |r.signatures| == r.numEntities
    && (forall id, c | 0 <= id < |r.signatures| && 0 <= c < MaxNumComponentTypes && r.signatures[id][c] :: Stored(r, c, id))
    && (forall e | e in r.toAdd :: e.id < r.numEntities)
    && (forall e | e in r.toRemove :: e.id < r.numEntities)
    && MembersBelow(r.systems, r.numEntities)
  }

  /** Component ID `c` is registered and its pool has a slot for entity ID `id`. */
  predicate Stored<V>(r: Registry<V>, c: nat, id: nat) {
    c < r.types.next && c < |r.pools| && r.pools[c].Live? && id < Size(r.pools[c].pool)
  }

  /** Every member of every system has an ID below `bound`. */
  predicate MembersBelow(systems: map<SystemName, System>, bound: nat) {
    forall n, i | n in systems && 0 <= i < |systems[n].entities| :: systems[n].entities[i].id < bound
  }

  lemma StartValid<V>()
    ensures Valid(Start<V>())
  {
  }

  // ---------------------------------------------------------------- entities

  /**
   * `CreateEntity`: constructs the next entity, marks it pending-add and
   * grows the signature table to the entity count when the new ID does not
   * index it yet. The entity reaches no system before the next Update.
   */
  function CreateEntity<V>(r: Registry<V>): (res: Result<(Entity, Registry<V>)>)
    ensures res.Ok? <==> r.numEntities + 1 < MaxNumEntities
    ensures res.Ok? ==>
      var e, r' := res.value.0, res.value.1;
      && e.id == r.numEntities && r'.numEntities == r.numEntities + 1
      && r'.toAdd == r.toAdd + {e} && r'.toRemove == r.toRemove
      && e.id < |r'.signatures| && |r.signatures| <= |r'.signatures|
      && (|r.signatures| <= e.id ==> r'.signatures[e.id] == Empty)
      && (forall i | 0 <= i < |r.signatures| :: r'.signatures[i] == r.signatures[i])
      && r'.types == r.types && r'.pools == r.pools && r'.systems == r.systems
  {
    match NewEntity(r.numEntities)
    case Err(f) => Err(f)
    case Ok(created) =>
      var e, count := created.0, created.1;
      var sigs := if e.id >= |r.signatures| then ResizeSignatures(r.signatures, count) else r.signatures;
      Ok((e, r.(numEntities := count, signatures := sigs, toAdd := r.toAdd + {e})))
  }

  /** `DestroyEntity`: only marks the entity pending-remove; nothing else changes until Update. */
  function DestroyEntity<V>(r: Registry<V>, e: Entity): (r': Registry<V>)
    ensures r'.toRemove == r.toRemove + {e}
    ensures r' == r.(toRemove := r'.toRemove)
  {
    r.(toRemove := r.toRemove + {e})
  }

  lemma CreateEntityValid<V>(r: Registry<V>)
    requires Valid(r) && CreateEntity(r).Ok?
    ensures Valid(CreateEntity(r).value.1)
    ensures CreateEntity(r).value.0 !in r.toAdd + r.toRemove
    ensures Bits(CreateEntity(r).value.1.signatures[r.numEntities]) == {}
  {
    var r' := CreateEntity(r).value.1;
    assert forall id, c | 0 <= id < r.numEntities && 0 <= c < MaxNumComponentTypes :: r'.signatures[id][c] == r.signatures[id][c];
    assert Bits(Empty) == {};
  }

  lemma DestroyEntityValid<V>(r: Registry<V>, e: Entity)
    requires Valid(r) && e.id < r.numEntities
    ensures Valid(DestroyEntity(r, e))
  {
  }

  // -------------------------------------------------------------- components

  /**
   * `AddComponent<T>(e, value)`. Fails when constructing the component trips
   * the Component constructor's assertion, which compares the type counter
   * (after T is registered) plus one against the signature width. Otherwise:
   * a pool exists for T, it has a slot for e holding the value (inserted, so
   * later slots moved up by one), e's signature gained exactly T's bit, and
   * nothing else changed; in particular no system's members.
   */
  function AddComponent<V>(r: Registry<V>, e: Entity, k: ComponentName, v: V): (res: Result<Registry<V>>)
    ensures res.Err? <==> GetId(r.types, k).1.next + 1 >= MaxNumComponentTypes || GetId(r.types, k).0 >= MaxNumComponentTypes
    ensures res.Ok? ==>
      var r', cid := res.value, GetId(r.types, k).0;
      var prior := PoolOf(r, cid);
      && r'.types == GetId(r.types, k).1
      && cid < |r'.pools| && r'.pools[cid].Live?
      && (var pool := r'.pools[cid].pool;
          && Size(pool) == (if e.id < Size(prior) then Size(prior) else e.id + 1) + 1
          && Get(pool, e.id) == Holds(v)
          && (forall i | 0 <= i < e.id && i < Size(prior) :: Get(pool, i) == Get(prior, i))
          && (forall i | e.id <= i < Size(prior) :: Get(pool, i + 1) == Get(prior, i)))
      && |r.pools| <= |r'.pools|
      && (forall c | 0 <= c < |r.pools| && c != cid :: r'.pools[c] == r.pools[c])
      && e.id < |r'.signatures| && |r.signatures| <= |r'.signatures|
      && Bits(r'.signatures[e.id]) == Bits(SignatureOf(r, e)) + {cid}
      && (forall i | 0 <= i < |r'.signatures| && i != e.id :: r'.signatures[i] == SignatureOf(r, Entity(i)))
      && r'.numEntities == r.numEntities && r'.systems == r.systems
      && r'.toAdd == r.toAdd && r'.toRemove == r.toRemove
  {
    var issued := GetId(r.types, k);
    var cid := issued.0;
    if issued.1.next + 1 >= MaxNumComponentTypes then
      Err(TooManyComponentTypes)
    else if cid >= MaxNumComponentTypes then
      Err(BitOutOfRange)
    else
      var pools := if cid >= |r.pools| then r.pools + Nulls(cid + 1 - |r.pools|) else r.pools;
      var pool0 := if pools[cid].Live? then pools[cid].pool else New();
      assert pool0 == PoolOf(r, cid);
      var pool1 := if e.id >= Size(pool0) then Resize(pool0, e.id + 1) else pool0;
      var pool2 := Insert(pool1, e.id, v);
      var sigs := if e.id >= |r.signatures| then ResizeSignatures(r.signatures, e.id + 1) else r.signatures;
      Ok(r.(types := issued.1,
            pools := pools[cid := Live(pool2)],
            signatures := sigs[e.id := Set(sigs[e.id], cid)]))
  }

  /**
   * `HasComponent<T>(e)`: asserts that e indexes the signature table, asks
   * for T's ID (registering T if new), and tests that bit, which throws when
   * the ID is outside the width. Only the type table can change.
   */
  function HasComponent<V>(r: Registry<V>, e: Entity, k: ComponentName): (res: Result<(bool, Registry<V>)>)
    ensures res.Err? <==> e.id >= |r.signatures| || GetId(r.types, k).0 >= MaxNumComponentTypes
    ensures res.Ok? ==>
      && res.value.1 == r.(types := GetId(r.types, k).1)
      && (res.value.0 <==> GetId(r.types, k).0 in Bits(r.signatures[e.id]))
  {
    if e.id >= |r.signatures| then Err(UnknownEntity)
    else
      var issued := GetId(r.types, k);
      if issued.0 >= MaxNumComponentTypes then Err(BitOutOfRange)
      else Ok((Test(r.signatures[e.id], issued.0), r.(types := issued.1)))
  }

  /**
   * `RemoveComponent<T>(e)`: clears T's bit in e's signature and nothing
   * else; the pool keeps the component and no system's members change.
   */
  function RemoveComponent<V>(r: Registry<V>, e: Entity, k: ComponentName): (res: Result<Registry<V>>)
    ensures res.Err? <==> e.id >= |r.signatures| || GetId(r.types, k).0 >= MaxNumComponentTypes
    ensures res.Ok? ==>
      var r' := res.value;
      && r'.types == GetId(r.types, k).1
      && |r'.signatures| == |r.signatures|
      && Bits(r'.signatures[e.id]) == Bits(r.signatures[e.id]) - {GetId(r.types, k).0}
      && (forall i | 0 <= i < |r.signatures| && i != e.id :: r'.signatures[i] == r.signatures[i])
      && r'.pools == r.pools && r'.systems == r.systems && r'.numEntities == r.numEntities
      && r'.toAdd == r.toAdd && r'.toRemove == r.toRemove
  {
    if e.id >= |r.signatures| then Err(UnknownEntity)
    else
      var issued := GetId(r.types, k);
      if issued.0 >= MaxNumComponentTypes then Err(BitOutOfRange)
      else
        var sig := Reset(r.signatures[e.id], issued.0);
        Ok(r.(types := issued.1, signatures := r.signatures[e.id := sig]))
  }

  /**
   * `GetComponent<T>(e)`: the slot of T's pool at e's ID, defined only when
   * HasComponent holds (its assertion fails otherwise). The slot can be
   * `Blank` (a default-constructed T) when a later insertion moved e's
   * component along.
   */
  function GetComponent<V>(r: Registry<V>, e: Entity, k: ComponentName): (res: Result<Slot<V>>)
    ensures res.Ok? ==> HasComponent(r, e, k).Ok? && HasComponent(r, e, k).value.0
    ensures res.Ok? ==>
      var pool := PoolOf(r, GetId(r.types, k).0);
      e.id < Size(pool) && res.value == Get(pool, e.id)
  {
    match HasComponent(r, e, k)
    case Err(f) => Err(f)
    case Ok(answer) =>
      if !answer.0 then Err(MissingComponent)
      else
        var cid := GetId(r.types, k).0;
        if cid < |r.pools| && r.pools[cid].Live? && e.id < Size(r.pools[cid].pool) then
          Ok(Get(r.pools[cid].pool, e.id))
        else
          Err(InvalidAccess)
  }

  lemma AddComponentValid<V>(r: Registry<V>, e: Entity, k: ComponentName, v: V)
    requires Valid(r) && e.id < r.numEntities && AddComponent(r, e, k, v).Ok?
    ensures Valid(AddComponent(r, e, k, v).value)
  {
    var r' := AddComponent(r, e, k, v).value;
    var cid := GetId(r.types, k).0;
    GetIdValid(r.types, k);
    GetIdKeepsIds(r.types, k);
    forall id, c | 0 <= id < |r'.signatures| && 0 <= c < MaxNumComponentTypes && r'.signatures[id][c]
      ensures Stored(r', c, id)
    {
      if c == cid {
        if id != e.id {
          assert Stored(r, c, id);
          assert Size(PoolOf(r, cid)) <= Size(r'.pools[cid].pool);
        }
      } else {
        if id == e.id {
          assert c in Bits(r'.signatures[e.id]);
          assert c in Bits(r.signatures[id]);
        }
        assert r.signatures[id][c];
        assert Stored(r, c, id);
      }
    }
  }

  lemma HasComponentValid<V>(r: Registry<V>, e: Entity, k: ComponentName)
    requires Valid(r) && HasComponent(r, e, k).Ok?
    ensures Valid(HasComponent(r, e, k).value.1)
  {
    GetIdValid(r.types, k);
    var r' := HasComponent(r, e, k).value.1;
    forall id, c | 0 <= id < |r'.signatures| && 0 <= c < MaxNumComponentTypes && r'.signatures[id][c]
      ensures Stored(r', c, id)
    {
      assert Stored(r, c, id);
    }
  }

  lemma RemoveComponentValid<V>(r: Registry<V>, e: Entity, k: ComponentName)
    requires Valid(r) && RemoveComponent(r, e, k).Ok?
    ensures Valid(RemoveComponent(r, e, k).value)
  {
    GetIdValid(r.types, k);
    var r' := RemoveComponent(r, e, k).value;
    forall id, c | 0 <= id < |r'.signatures| && 0 <= c < MaxNumComponentTypes && r'.signatures[id][c]
      ensures Stored(r', c, id)
    {
      if id == e.id {
        assert c in Bits(r'.signatures[id]);
      }
      assert r.signatures[id][c];
      assert Stored(r, c, id);
    }
  }

  /** After AddComponent<T>(e, v), HasComponent<T>(e) holds and GetComponent<T>(e) yields v. */
  lemma AddThenHas<V>(r: Registry<V>, e: Entity, k: ComponentName, v: V)
    requires AddComponent(r, e, k, v).Ok?
    ensures HasComponent(AddComponent(r, e, k, v).value, e, k) == Ok((true, AddComponent(r, e, k, v).value))
    ensures GetComponent(AddComponent(r, e, k, v).value, e, k) == Ok(Holds(v))
  {
    var r' := AddComponent(r, e, k, v).value;
    var cid := GetId(r.types, k).0;
    assert k in r'.types.ids && r'.types.ids[k] == cid;
    assert GetId(r'.types, k) == (cid, r'.types);
    assert r'.(types := r'.types) == r';
  }

  /** After RemoveComponent<T>(e), HasComponent<T>(e) is false and GetComponent<T>(e) fails. */
  lemma RemoveThenHasNot<V>(r: Registry<V>, e: Entity, k: ComponentName)
    requires RemoveComponent(r, e, k).Ok?
    ensures HasComponent(RemoveComponent(r, e, k).value, e, k) == Ok((false, RemoveComponent(r, e, k).value))
    ensures GetComponent(RemoveComponent(r, e, k).value, e, k) == Err(MissingComponent)
  {
    var r' := RemoveComponent(r, e, k).value;
    var cid := GetId(r.types, k).0;
    assert GetId(r'.types, k) == (cid, r'.types);
    assert r'.(types := r'.types) == r';
  }

  /** In a consistent registry, GetComponent succeeds exactly when HasComponent answers true. */
  lemma GetComponentIffHas<V>(r: Registry<V>, e: Entity, k: ComponentName)
    requires Valid(r)
    ensures GetComponent(r, e, k).Ok? <==> HasComponent(r, e, k).Ok? && HasComponent(r, e, k).value.0
  {
    if HasComponent(r, e, k).Ok? && HasComponent(r, e, k).value.0 {
      var cid := GetId(r.types, k).0;
      assert r.signatures[e.id][cid];
      assert Stored(r, cid, e.id);
    }
  }

  /**
   * Insertion shifts other entities' components: for a type with no pool
   * yet, after entity 1 and then entity 0 receive a component of that type,
   * entity 1 still has the component but its slot holds a default-constructed
   * one.
   */
  lemma InsertShiftsAnotherEntitysComponent<V>(r: Registry<V>, k: ComponentName, v0: V, v1: V)
    requires Valid(r) && r.numEntities >= 2 && k in r.types.ids && r.types.next + 1 < MaxNumComponentTypes
    requires r.types.ids[k] >= |r.pools|
    ensures AddComponent(r, Entity(1), k, v1).Ok?
    ensures AddComponent(AddComponent(r, Entity(1), k, v1).value, Entity(0), k, v0).Ok?
    ensures
      var r2 := AddComponent(AddComponent(r, Entity(1), k, v1).value, Entity(0), k, v0).value;
      && HasComponent(r2, Entity(1), k).Ok? && HasComponent(r2, Entity(1), k).value.0
      && GetComponent(r2, Entity(1), k) == Ok(Blank)
  {
    var cid := r.types.ids[k];
    assert GetId(r.types, k) == (cid, r.types);
    var r1 := AddComponent(r, Entity(1), k, v1).value;
    assert Get(r1.pools[cid].pool, 0) == Blank;
    assert GetId(r1.types, k) == (cid, r1.types);
    var r2 := AddComponent(r1, Entity(0), k, v0).value;
    assert GetId(r2.types, k) == (cid, r2.types);
    assert cid in Bits(r1.signatures[1]);
    assert r2.signatures[1] == r1.signatures[1];
    assert Get(r2.pools[cid].pool, 1) == Blank;
  }

  /**
   * In general, after entity 1 and then entity 0 receive a component of the
   * same type, entity 1's slot holds whatever slot 0 of that type's pool held
   * before: a default-constructed component for a new pool, but entity 0's
   * earlier component when it had one.
   */
  lemma InsertShiftHandsOverSlotZero<V>(r: Registry<V>, k: ComponentName, v0: V, v1: V)
    requires Valid(r) && r.numEntities >= 2 && k in r.types.ids && r.types.next + 1 < MaxNumComponentTypes
    ensures AddComponent(r, Entity(1), k, v1).Ok?
    ensures AddComponent(AddComponent(r, Entity(1), k, v1).value, Entity(0), k, v0).Ok?
    ensures
      var prior := PoolOf(r, r.types.ids[k]);
      var r2 := AddComponent(AddComponent(r, Entity(1), k, v1).value, Entity(0), k, v0).value;
      && HasComponent(r2, Entity(1), k).Ok? && HasComponent(r2, Entity(1), k).value.0
      && GetComponent(r2, Entity(1), k) == Ok(if Size(prior) > 0 then Get(prior, 0) else Blank)
  {
    var cid := r.types.ids[k];
    var prior := PoolOf(r, cid);
    var before: Slot<V> := if Size(prior) > 0 then Get(prior, 0) else Blank;
    assert GetId(r.types, k) == (cid, r.types);
    var r1 := AddComponent(r, Entity(1), k, v1).value;
    assert Get(r1.pools[cid].pool, 0) == before;
    assert GetId(r1.types, k) == (cid, r1.types);
    var r2 := AddComponent(r1, Entity(0), k, v0).value;
    assert GetId(r2.types, k) == (cid, r2.types);
    assert cid in Bits(r1.signatures[1]);
    assert r2.signatures[1] == r1.signatures[1];
    assert Get(r2.pools[cid].pool, 1) == before;
  }

  // ----------------------------------------------------------------- systems

  /**
   * `AddSystem<S>(required)`: when S is already registered nothing happens
   * (its constructor does not run); otherwise the constructor runs the
   * RequireComponent calls and the system is stored with no members.
   */
  function AddSystem<V>(r: Registry<V>, name: SystemName, required: seq<ComponentName>): (res: Result<Registry<V>>)
    ensures name in r.systems ==> res == Ok(r)
    ensures name !in r.systems ==> (res.Ok? <==> Construct(r.types, required).Ok?)
    ensures res.Ok? && name !in r.systems ==>
      && name in res.value.systems
      && res.value.systems[name] == Construct(r.types, required).value.1
      && res.value.systems[name].entities == []
      && res.value.types == Construct(r.types, required).value.0
    ensures res.Ok? ==>
      && res.value.systems.Keys == r.systems.Keys + {name}
      && (forall n | n in r.systems :: res.value.systems[n] == r.systems[n])
      && res.value == r.(types := res.value.types, systems := res.value.systems)
  {
    if name in r.systems then Ok(r)
    else
      match Construct(r.types, required)
      case Err(f) => Err(f)
      case Ok(built) => Ok(r.(types := built.0, systems := r.systems[name := built.1]))
  }

  /** `RemoveSystem<S>()`: S is no longer registered; a no-op when it was not. */
  function RemoveSystem<V>(r: Registry<V>, name: SystemName): (r': Registry<V>)
    ensures !HasSystem(r', name)
    ensures !HasSystem(r, name) ==> r' == r
    ensures r'.systems.Keys == r.systems.Keys - {name}
    ensures forall n | n in r'.systems :: r'.systems[n] == r.systems[n]
    ensures r' == r.(systems := r'.systems)
  {
    if name in r.systems then r.(systems := r.systems - {name}) else r
  }

  /** `HasSystem<S>()`. */
  predicate HasSystem<V>(r: Registry<V>, name: SystemName) {
    name in r.systems
  }

  /**
   * HasSystem follows the system calls: true after a successful AddSystem,
   * false after RemoveSystem, and unchanged for every other system type.
   */
  lemma HasSystemTracksCalls<V>(r: Registry<V>, name: SystemName, other: SystemName, required: seq<ComponentName>)
    requires other != name
    ensures AddSystem(r, name, required).Ok? ==> HasSystem(AddSystem(r, name, required).value, name)
    ensures AddSystem(r, name, required).Ok? ==> (HasSystem(AddSystem(r, name, required).value, other) <==> HasSystem(r, other))
    ensures !HasSystem(RemoveSystem(r, name), name)
    ensures HasSystem(RemoveSystem(r, name), other) <==> HasSystem(r, other)
  {
  }

  /** `GetSystem<S>()`: the registered system; without one the function returns nothing. */
  function GetSystem<V>(r: Registry<V>, name: SystemName): (res: Result<System>)
    ensures res.Ok? <==> HasSystem(r, name)
    ensures res.Ok? ==> res.value == r.systems[name]
  {
    if name in r.systems then Ok(r.systems[name]) else Err(MissingSystem)
  }

  lemma AddSystemValid<V>(r: Registry<V>, name: SystemName, required: seq<ComponentName>)
    requires Valid(r) && AddSystem(r, name, required).Ok?
    ensures Valid(AddSystem(r, name, required).value)
  {
    if name !in r.systems {
      var r' := AddSystem(r, name, required).value;
      var t' := IssueAll(r.types, required).1;
      IssueAllValid(r.types, required);
      IssueAllCount(r.types, required);
      TypesGrowValid(r, t');
      assert r' == r.(types := t').(systems := r.systems[name := r'.systems[name]]);
    }
  }

  /** Registering more component types keeps a registry consistent. */
  lemma TypesGrowValid<V>(r: Registry<V>, t': TypeIds)
    requires Valid(r) && ComponentIds.Valid(t') && r.types.next <= t'.next
    ensures Valid(r.(types := t'))
  {
    var r' := r.(types := t');
    forall id, c | 0 <= id < |r'.signatures| && 0 <= c < MaxNumComponentTypes && r'.signatures[id][c]
      ensures Stored(r', c, id)
    {
      assert Stored(r, c, id);
    }
  }

  lemma RemoveSystemValid<V>(r: Registry<V>, name: SystemName)
    requires Valid(r)
    ensures Valid(RemoveSystem(r, name))
  {
  }

  /** Adding a system twice is the same as adding it once. */
  lemma AddSystemIdempotent<V>(r: Registry<V>, name: SystemName, required: seq<ComponentName>, again: seq<ComponentName>)
    requires AddSystem(r, name, required).Ok?
    ensures AddSystem(AddSystem(r, name, required).value, name, again) == AddSystem(r, name, required)
  {
  }
}

=== FILE: membership.dfy ===
/**
 * System membership: how entities reach and leave systems. Membership only
 * changes in `Update`, which first hands every pending-add entity to each
 * system whose required signature it matches and then takes every
 * pending-remove entity out of each matching system. The pending sets are
 * ordered sets, so both passes run in ascending entity ID.
 *
 * Systems sit in a hash map whose iteration order is unspecified; each
 * system is updated independently of the others, so the model updates all
 * of them at once.
 */
module Membership {
  import opened Faults
  import opened Signatures
  import opened Entities
  import opened Systems
  import opened Manager

  type Table = map<SystemName, System>

  /** Every system whose required signature `sig` matches gets `e` appended; the others are untouched. */
  function AddToMatching(systems: Table, sig: Signature, e: Entity): (r: Table)
    ensures r.Keys == systems.Keys
    ensures forall n | n in systems :: r[n].signature == systems[n].signature
    ensures forall n | n in systems && Matches(systems[n].signature, sig) :: r[n].entities == systems[n].entities + [e]
    ensures forall n | n in systems && !Matches(systems[n].signature, sig) :: r[n] == systems[n]
  {
    map n | n in systems :: if Matches(systems[n].signature, sig) then AddEntity(systems[n], e) else systems[n]
  }

  /**
   * Every system whose required signature `sig` matches runs its
   * RemoveEntity for `e`, which erases the member at position `e.id`
   * (whichever entity that is); the others are untouched.
   */
  function RemoveFromMatching(systems: Table, sig: Signature, e: Entity): (r: Table)
    ensures r.Keys == systems.Keys
    ensures forall n | n in systems :: r[n].signature == systems[n].signature
    ensures forall n | n in systems && Matches(systems[n].signature, sig) :: r[n] == RemoveEntity(systems[n], e)
    ensures forall n | n in systems :: multiset(r[n].entities) <= multiset(systems[n].entities)
    ensures forall n | n in systems && (!Matches(systems[n].signature, sig) || |systems[n].entities| <= e.id) :: r[n] == systems[n]
  {
    map n | n in systems :: if Matches(systems[n].signature, sig) then RemoveEntity(systems[n], e) else systems[n]
  }

  /** `AddEntityToSystems`: asserts that the entity indexes the signature table, then adds it where it matches. */
  function AddEntityToSystems(systems: Table, sigs: seq<Signature>, e: Entity): (r: Result<Table>)
    ensures r.Ok? <==> e.id < |sigs|
    ensures r.Ok? ==> r.value == AddToMatching(systems, sigs[e.id], e)
  {
    if e.id < |sigs| then Ok(AddToMatching(systems, sigs[e.id], e)) else Err(UnknownEntity)
  }

  /** `RemoveEntityFromSystems`: reads the entity's signature without a bounds check, then removes where it matches. */
  function RemoveEntityFromSystems(systems: Table, sigs: seq<Signature>, e: Entity): (r: Result<Table>)
    ensures r.Ok? <==> e.id < |sigs|
    ensures r.Ok? ==> r.value == RemoveFromMatching(systems, sigs[e.id], e)
  {
    if e.id < |sigs| then Ok(RemoveFromMatching(systems, sigs[e.id], e)) else Err(InvalidAccess)
  }

  /**
   * `UpdateEntityInSystems(e, old, new)`: nothing when the signatures are
   * equal; otherwise e is removed from every system matching the old
   * signature and then appended to every system matching the new one.
   */
  function UpdateEntityInSystems(systems: Table, e: Entity, before: Signature, after: Signature): (r: Table)
    ensures before == after ==> r == systems
    ensures r.Keys == systems.Keys
    ensures before != after ==> forall n | n in systems && Matches(systems[n].signature, after) ::
      |r[n].entities| > 0 && r[n].entities[|r[n].entities| - 1] == e
    ensures before != after ==> forall n | n in systems && Matches(systems[n].signature, before) && !Matches(systems[n].signature, after) ::
      r[n] == RemoveEntity(systems[n], e)
    ensures before != after ==> forall n | n in systems && Matches(systems[n].signature, before) && Matches(systems[n].signature, after) ::
      r[n].entities == RemoveEntity(systems[n], e).entities + [e]
    ensures before != after ==> forall n | n in systems && !Matches(systems[n].signature, before) && Matches(systems[n].signature, after) ::
      r[n].entities == systems[n].entities + [e]
    ensures forall n | n in systems && !Matches(systems[n].signature, before) && !Matches(systems[n].signature, after) :: r[n] == systems[n]
  {
    if before == after then systems
    else AddToMatching(RemoveFromMatching(systems, before, e), after, e)
  }

  // ------------------------------------------------------- pending entities

  /** A finite set of entities has one with the least ID. */
  lemma {:induction false} LeastExists(s: set<Entity>)
    requires s != {}
    ensures exists m :: m in s && forall x | x in s :: m.id <= x.id
    decreases |s|
  {
    var y :| y in s;
    var rest := s - {y};
    if rest == {} {
      forall x | x in s ensures y.id <= x.id {
        assert x == y by { assert x !in rest; }
      }
      assert y in s;
    } else {
      LeastExists(rest);
      var m :| m in rest && forall x | x in rest :: m.id <= x.id;
      var least := if y.id < m.id then y else m;
      forall x | x in s ensures least.id <= x.id {
        if x != y { assert x in rest; }
      }
      assert least in s;
    }
  }

  /** The element of a non-empty set of entities with the least ID. */
  function Least(s: set<Entity>): (m: Entity)
    requires s != {}
    ensures m in s && forall x | x in s :: m.id <= x.id
  {
    LeastExists(s);
    var m :| m in s && forall x | x in s :: m.id <= x.id;
    m
  }

  /** The iteration order of an ordered set of entities: every element once, by ascending ID. */
  function Ascending(s: set<Entity>): (r: seq<Entity>)
    ensures |r| == |s|
    ensures forall x :: x in r <==> x in s
    ensures forall i, j | 0 <= i < j < |r| :: r[i].id < r[j].id
    decreases |s|
  {
    if s == {} then []
    else
      var m := Least(s);
      var rest := Ascending(s - {m});
      assert forall x | x in rest :: m.id < x.id;
      [m] + rest
  }

  /** Every entity of `es` has an ID indexing `sigs`. */
  predicate AllKnown(sigs: seq<Signature>, es: seq<Entity>) {
    forall i | 0 <= i < |es| :: es[i].id < |sigs|
  }

  /** The entities of `es`, in order, whose signature the system signature `sig` matches. */
  function Matching(sig: Signature, sigs: seq<Signature>, es: seq<Entity>): (r: seq<Entity>)
    requires AllKnown(sigs, es)
    ensures |r| <= |es|
  {
    if es == [] then []
    else (if Matches(sig, sigs[es[0].id]) then [es[0]] else []) + Matching(sig, sigs, es[1..])
  }

  /** An entity is among the matching ones exactly when it is in `es` and its signature matches. */
  lemma {:induction false} MatchingMembers(sig: Signature, sigs: seq<Signature>, es: seq<Entity>)
    requires AllKnown(sigs, es)
    ensures forall x :: x in Matching(sig, sigs, es) <==> x in es && x.id < |sigs| && Matches(sig, sigs[x.id])
    decreases |es|
  {
    if es != [] {
      assert AllKnown(sigs, es[1..]);
      MatchingMembers(sig, sigs, es[1..]);
      assert forall x | x in es :: x == es[0] || x in es[1..];
    }
  }

  /** The add pass of Update: AddEntityToSystems for each entity in turn. */
  function AddEach(systems: Table, sigs: seq<Signature>, es: seq<Entity>): (r: Result<Table>)
    ensures r.Ok? <==> AllKnown(sigs, es)
    ensures r.Ok? ==> r.value.Keys == systems.Keys
    ensures r.Ok? ==> forall n | n in systems :: r.value[n].signature == systems[n].signature
    ensures r.Ok? ==> forall n, x | n in systems && x in r.value[n].entities :: x in systems[n].entities || x in es
    decreases |es|
  {
    if es == [] then Ok(systems)
    else
      match AddEntityToSystems(systems, sigs, es[0])
      case Err(f) => Err(f)
      case Ok(next) =>
        var rest := AddEach(next, sigs, es[1..]);
        assert AllKnown(sigs, es) <==> es[0].id < |sigs| && AllKnown(sigs, es[1..]);
        assert forall x | x in es[1..] :: x in es;
        rest
  }

  /**
   * `System::RemoveEntity` run for each entity of `xs` in turn: each call
   * erases the member at that entity's ID, if there is one.
   */
  function EraseEach(s: System, xs: seq<Entity>): (r: System)
    ensures r.signature == s.signature
    ensures multiset(r.entities) <= multiset(s.entities)
    decreases |xs|
  {
    if xs == [] then s else EraseEach(RemoveEntity(s, xs[0]), xs[1..])
  }

  /** The remove pass of Update: RemoveEntityFromSystems for each entity in turn. */
  function RemoveEach(systems: Table, sigs: seq<Signature>, es: seq<Entity>): (r: Result<Table>)
    ensures r.Ok? <==> AllKnown(sigs, es)
    ensures r.Ok? ==> r.value.Keys == systems.Keys
    ensures r.Ok? ==> forall n | n in systems :: r.value[n].signature == systems[n].signature
    ensures r.Ok? ==> forall n | n in systems :: multiset(r.value[n].entities) <= multiset(systems[n].entities)
    decreases |es|
  {
    if es == [] then Ok(systems)
    else
      match RemoveEntityFromSystems(systems, sigs, es[0])
      case Err(f) => Err(f)
      case Ok(next) =>
        assert AllKnown(sigs, es) <==> es[0].id < |sigs| && AllKnown(sigs, es[1..]);
        RemoveEach(next, sigs, es[1..])
  }

  /**
   * The membership part of `ECSManager::Update`: the add pass over the
   * pending-add set, then the remove pass over the pending-remove set, each
   * set cleared after its pass. Signatures, pools and the type table do not
   * change.
   */
  function Flush<V>(r: Registry<V>): (res: Result<Registry<V>>)
    ensures res.Ok? <==> forall e | e in r.toAdd + r.toRemove :: e.id < |r.signatures|
    ensures res.Ok? ==> res.value == r.(systems := res.value.systems, toAdd := {}, toRemove := {})
    ensures res.Ok? ==> res.value.systems.Keys == r.systems.Keys
    ensures res.Ok? ==> forall n | n in r.systems :: res.value.systems[n].signature == r.systems[n].signature
  {
    var adds, removes := Ascending(r.toAdd), Ascending(r.toRemove);
    assert AllKnown(r.signatures, adds) <==> forall e | e in r.toAdd :: e.id < |r.signatures|;
    assert AllKnown(r.signatures, removes) <==> forall e | e in r.toRemove :: e.id < |r.signatures|;
    match AddEach(r.systems, r.signatures, adds)
    case Err(f) => Err(f)
    case Ok(added) =>
      match RemoveEach(added, r.signatures, removes)
      case Err(f) => Err(f)
      case Ok(removed) => Ok(r.(systems := removed, toAdd := {}, toRemove := {}))
  }

  // ------------------------------------------------------------- properties

  /** The add pass appends to each system exactly the matching entities, in pass order. */
  lemma {:induction false} AddEachMembers(systems: Table, sigs: seq<Signature>, es: seq<Entity>, n: SystemName)
    requires AllKnown(sigs, es) && n in systems
    ensures AddEach(systems, sigs, es).value[n].entities == systems[n].entities + Matching(systems[n].signature, sigs, es)
    decreases |es|
  {
    if es != [] {
      var sig := systems[n].signature;
      var next := AddToMatching(systems, sigs[es[0].id], es[0]);
      var first: seq<Entity> := if Matches(sig, sigs[es[0].id]) then [es[0]] else [];
      var later := Matching(sig, sigs, es[1..]);
      assert next[n].entities == systems[n].entities + first;
      assert AllKnown(sigs, es[1..]);
      AddEachMembers(next, sigs, es[1..], n);
      AddEachStep(systems, sigs, es);
      MatchingStep(sig, sigs, es);
      AppendAssoc(systems[n].entities, first, later);
    }
  }

  lemma AppendAssoc<T>(a: seq<T>, b: seq<T>, c: seq<T>)
    ensures (a + b) + c == a + (b + c)
  {
  }

  lemma AddEachStep(systems: Table, sigs: seq<Signature>, es: seq<Entity>)
    requires es != [] && AllKnown(sigs, es)
    ensures AddEach(systems, sigs, es) == AddEach(AddToMatching(systems, sigs[es[0].id], es[0]), sigs, es[1..])
  {
  }

  lemma MatchingStep(sig: Signature, sigs: seq<Signature>, es: seq<Entity>)
    requires es != [] && AllKnown(sigs, es)
    ensures Matching(sig, sigs, es) == (if Matches(sig, sigs[es[0].id]) then [es[0]] else []) + Matching(sig, sigs, es[1..])
  {
  }

  /**
   * The remove pass runs, in each system, RemoveEntity for exactly the
   * entities whose signature the system matches, in pass order.
   */
  lemma {:induction false} RemoveEachMembers(systems: Table, sigs: seq<Signature>, es: seq<Entity>, n: SystemName)
    requires AllKnown(sigs, es) && n in systems
    ensures RemoveEach(systems, sigs, es).value[n] == EraseEach(systems[n], Matching(systems[n].signature, sigs, es))
    decreases |es|
  {
    if es != [] {
      var sig := systems[n].signature;
      var next := RemoveFromMatching(systems, sigs[es[0].id], es[0]);
      var first: seq<Entity> := if Matches(sig, sigs[es[0].id]) then [es[0]] else [];
      var later := Matching(sig, sigs, es[1..]);
      assert AllKnown(sigs, es[1..]);
      RemoveEachMembers(next, sigs, es[1..], n);
      RemoveEachStep(systems, sigs, es);
      MatchingStep(sig, sigs, es);
      if first == [] {
        assert first + later == later;
      } else {
        assert (first + later)[0] == es[0] && (first + later)[1..] == later;
      }
    }
  }

  lemma RemoveEachStep(systems: Table, sigs: seq<Signature>, es: seq<Entity>)
    requires es != [] && AllKnown(sigs, es)
    ensures RemoveEach(systems, sigs, es) == RemoveEach(RemoveFromMatching(systems, sigs[es[0].id], es[0]), sigs, es[1..])
  {
  }

  /**
   * Update, per system: the matching pending-add entities are appended in
   * ascending ID, then RemoveEntity runs for each matching pending-remove
   * entity in ascending ID.
   */
  lemma FlushMembers<V>(r: Registry<V>, n: SystemName)
    requires Flush(r).Ok? && n in r.systems
    ensures
      var sig := r.systems[n].signature;
      var adds, removes := Ascending(r.toAdd), Ascending(r.toRemove);
      && AllKnown(r.signatures, adds) && AllKnown(r.signatures, removes)
      && Flush(r).value.systems[n]
         == EraseEach(r.systems[n].(entities := r.systems[n].entities + Matching(sig, r.signatures, adds)),
                      Matching(sig, r.signatures, removes))
  {
    var adds, removes := Ascending(r.toAdd), Ascending(r.toRemove);
    FlushPasses(r);
    var added := AddEach(r.systems, r.signatures, adds).value;
    AddEachMembers(r.systems, r.signatures, adds, n);
    RemoveEachMembers(added, r.signatures, removes, n);
  }

  /** Update keeps the registry consistent and always completes on a consistent registry. */
  lemma FlushValid<V>(r: Registry<V>)
    requires Valid(r)
    ensures Flush(r).Ok?
    ensures Valid(Flush(r).value)
  {
    var adds := Ascending(r.toAdd);
    var added := AddEach(r.systems, r.signatures, adds).value;
    var r' := Flush(r).value;
    forall n, i | n in r'.systems && 0 <= i < |r'.systems[n].entities|
      ensures r'.systems[n].entities[i].id < r'.numEntities
    {
      var x := r'.systems[n].entities[i];
      assert x in multiset(added[n].entities);
      assert x in r.systems[n].entities || x in adds;
    }
    assert forall id, c | 0 <= id < |r'.signatures| && 0 <= c < MaxNumComponentTypes && r'.signatures[id][c] :: Stored(r', c, id) by {
      forall id, c | 0 <= id < |r'.signatures| && 0 <= c < MaxNumComponentTypes && r'.signatures[id][c]
        ensures Stored(r', c, id)
      {
        assert Stored(r, c, id);
      }
    }
  }

  /**
   * With nothing pending removal, Update appends to each system exactly the
   * pending entities whose signature it matches, in ascending ID.
   */
  lemma FlushAddsMatching<V>(r: Registry<V>, n: SystemName)
    requires Valid(r) && r.toRemove == {} && n in r.systems
    ensures
      var adds := Ascending(r.toAdd);
      AllKnown(r.signatures, adds) &&
      Flush(r).value.systems[n].entities == r.systems[n].entities + Matching(r.systems[n].signature, r.signatures, adds)
  {
    var adds := Ascending(r.toAdd);
    AddEachMembers(r.systems, r.signatures, adds, n);
  }

  /** A second Update with nothing pending changes nothing. */
  lemma FlushIdempotent<V>(r: Registry<V>)
    requires Flush(r).Ok?
    ensures Flush(Flush(r).value) == Flush(r)
  {
    var r' := Flush(r).value;
    assert Ascending(r'.toAdd) == [] && Ascending(r'.toRemove) == [];
  }

  /**
   * Removal erases by position, using the entity's ID as the index: a
   * destroyed entity whose ID is not below the system's member count stays
   * a member after Update.
   */
  lemma DestroyedEntityCanStay<V>(r: Registry<V>, n: SystemName, e: Entity)
    requires Valid(r) && r.toAdd == {} && r.toRemove == {e}
    requires n in r.systems && e in r.systems[n].entities && |r.systems[n].entities| <= e.id
    ensures e in Flush(r).value.systems[n].entities
  {
    assert Ascending(r.toAdd) == [];
    assert Ascending(r.toRemove) == [e];
    FlushPasses(r);
    var removed := RemoveFromMatching(r.systems, r.signatures[e.id], e);
    assert RemoveEach(r.systems, r.signatures, [e]) == RemoveEach(removed, r.signatures, []);
  }

  /** Proof step only: Update's systems are the remove pass applied to the result of the add pass. */
  lemma FlushPasses<V>(r: Registry<V>)
    requires Flush(r).Ok?
    ensures AddEach(r.systems, r.signatures, Ascending(r.toAdd)).Ok?
    ensures Flush(r).value.systems
      == RemoveEach(AddEach(r.systems, r.signatures, Ascending(r.toAdd)).value, r.signatures, Ascending(r.toRemove)).value
  {
  }
}

=== FILE: pools.dfy ===
/**
 * Component pools: `Pool<T>` wraps a `std::vector<T>` indexed by entity ID.
 * Slots that no component was written to hold a default-constructed `T`,
 * modelled as `Blank`.
 */
module Pools {

  datatype Slot<V> = Blank | Holds(value: V)

  datatype Pool<V> = Pool(data: seq<Slot<V>>)

  /** The registry's pool table holds null pointers for IDs with no pool yet. */
  datatype PoolRef<V> = Null | Live(pool: Pool<V>)

  /** The constructor's default size. */
  const DefaultPoolSize: nat := 100

  /** `Pool()`: DefaultPoolSize default-constructed slots. */
  function New<V>(): (p: Pool<V>)
    ensures Size(p) == DefaultPoolSize
    ensures forall i | 0 <= i < Size(p) :: Get(p, i) == Blank
  {
    Pool(seq(DefaultPoolSize, _ => Blank))
  }

  /** `Size()`; `Empty()` holds exactly when it is zero. */
  function Size<V>(p: Pool<V>): (n: nat)
    ensures n == 0 <==> IsEmpty(p)
  {
    |p.data|
  }

  predicate IsEmpty<V>(p: Pool<V>) {
    |p.data| == 0
  }

  /** `Get(idx)`: the slot at an index the caller keeps in bounds. */
  function Get<V>(p: Pool<V>, idx: nat): Slot<V>
    requires idx < Size(p)
  {
    p.data[idx]
  }

  /**
   * `Resize(n)` is `vector::resize`: it truncates to n slots or extends with
   * default-constructed ones, keeping the slots both sizes share.
   */
  function Resize<V>(p: Pool<V>, n: nat): (r: Pool<V>)
    ensures Size(r) == n
    ensures forall i | 0 <= i < n && i < Size(p) :: Get(r, i) == Get(p, i)
    ensures forall i | Size(p) <= i < n :: Get(r, i) == Blank
  {
    if n <= |p.data| then Pool(p.data[..n])
    else Pool(p.data + seq(n - |p.data|, _ => Blank))
  }

  /** `Clear()` drops every slot. */
  function Clear<V>(p: Pool<V>): (r: Pool<V>)
    ensures IsEmpty(r)
  {
    Pool([])
  }

  /** `Push(x)` appends x and keeps every earlier slot. */
  function Push<V>(p: Pool<V>, x: V): (r: Pool<V>)
    ensures Size(r) == Size(p) + 1
    ensures Get(r, Size(p)) == Holds(x)
    ensures forall i | 0 <= i < Size(p) :: Get(r, i) == Get(p, i)
  {
    Pool(p.data + [Holds(x)])
  }

  /**
   * `Insert(idx, x)` is `vector::insert` at position idx: the pool grows by
   * one, slot idx holds x, earlier slots are kept and every later slot moves
   * up by one. It is not an assignment to slot idx.
   */
  function Insert<V>(p: Pool<V>, idx: nat, x: V): (r: Pool<V>)
    requires idx <= Size(p)
    ensures Size(r) == Size(p) + 1
    ensures Get(r, idx) == Holds(x)
    ensures forall i | 0 <= i < idx :: Get(r, i) == Get(p, i)
    ensures forall i | idx <= i < Size(p) :: Get(r, i + 1) == Get(p, i)
  {
    Pool(p.data[..idx] + [Holds(x)] + p.data[idx..])
  }

  /** Inserting keeps every old slot: the pool's contents grow by exactly the new value. */
  lemma InsertKeepsContents<V>(p: Pool<V>, idx: nat, x: V)
    requires idx <= Size(p)
    ensures multiset(Insert(p, idx, x).data) == multiset(p.data) + multiset{Holds(x)}
  {
    assert p.data == p.data[..idx] + p.data[idx..];
  }

  /**
   * Because Insert shifts, whatever sat at idx before is no longer found
   * there but one slot later: inserting is not writing the slot.
   */
  lemma InsertMovesOccupant<V>(p: Pool<V>, idx: nat, x: V)
    requires idx < Size(p) && Get(p, idx) != Holds(x)
    ensures Get(Insert(p, idx, x), idx) != Get(p, idx)
    ensures Get(Insert(p, idx, x), idx + 1) == Get(p, idx)
  {
  }
}

=== FILE: signatures.dfy ===
/**
 * Component signatures: a `std::bitset` whose width is the maximum number of
 * component types. Bit i is set when the entity (or, for a system, the
 * requirement) includes the component type whose ID is i.
 */
module Signatures {

  /** The bitset width: CoreStatics::MaxNumComponentTypes. */
  const MaxNumComponentTypes: nat := 32

  /** A fixed-width bitset, one boolean per component-type ID. */
  type Signature = s: seq<bool> | |s| == MaxNumComponentTypes witness seq(32, _ => false)

  /** `n` cleared bits. */
  function Cleared(n: nat): (r: seq<bool>)
    ensures |r| == n && forall i | 0 <= i < n :: !r[i]
  {
    if n == 0 then [] else Cleared(n - 1) + [false]
  }

  /** A default-constructed bitset: no bit set. */
  const Empty: Signature := Cleared(MaxNumComponentTypes)

  /** `bitset::test(i)` for an index inside the width. */
  predicate Test(s: Signature, i: nat)
    requires i < MaxNumComponentTypes
  {
    s[i]
  }

  /** The set of component-type IDs whose bits are set. */
  function Bits(s: Signature): set<nat> {
    set i: nat | i < MaxNumComponentTypes && Test(s, i)
  }

  /** `bitset::set(i)`: bit i becomes true, every other bit keeps its value. */
  function Set(s: Signature, i: nat): (r: Signature)
    requires i < MaxNumComponentTypes
    ensures Bits(r) == Bits(s) + {i}
  {
    s[i := true]
  }

  /** `bitset::set(i, false)`: bit i becomes false, every other bit keeps its value. */
  function Reset(s: Signature, i: nat): (r: Signature)
    requires i < MaxNumComponentTypes
    ensures Bits(r) == Bits(s) - {i}
  {
    s[i := false]
  }

  /** Bitwise `&` of two bitsets. */
  function And(a: Signature, b: Signature): Signature {
    seq(MaxNumComponentTypes, i requires 0 <= i < MaxNumComponentTypes => a[i] && b[i])
  }

  /**
   * The test the registry applies everywhere a system is matched against an
   * entity: `(systemSignature & entitySignature) == systemSignature`.
   */
  predicate Matches(sys: Signature, ent: Signature) {
    And(sys, ent) == sys
  }

  /** Two bitsets with the same set bits are the same bitset. */
  lemma BitsInjective(a: Signature, b: Signature)
    requires Bits(a) == Bits(b)
    ensures a == b
  {
    forall i | 0 <= i < MaxNumComponentTypes ensures a[i] == b[i] {
      assert a[i] <==> i in Bits(a);
      assert b[i] <==> i in Bits(b);
    }
  }

  /** The registry's bitwise test means exactly "every required type is present". */
  lemma MatchesIffSubset(sys: Signature, ent: Signature)
    ensures Matches(sys, ent) <==> Bits(sys) <= Bits(ent)
  {
    if Bits(sys) <= Bits(ent) {
      forall i | 0 <= i < MaxNumComponentTypes ensures And(sys, ent)[i] == sys[i] {
        if Test(sys, i) {
          assert i in Bits(sys);
        }
      }
    }
    if Matches(sys, ent) {
      forall i | i in Bits(sys) ensures i in Bits(ent) {
        assert And(sys, ent)[i];
      }
    }
  }

  /** The empty requirement matches every entity; an entity with no bits matches only it. */
  lemma EmptyMatching(s: Signature)
    ensures Matches(Empty, s)
    ensures Matches(s, Empty) <==> s == Empty
  {
    MatchesIffSubset(Empty, s);
    MatchesIffSubset(s, Empty);
    assert Bits(Empty) == {};
    if Bits(s) <= Bits(Empty) {
      BitsInjective(s, Empty);
    }
  }
}

=== FILE: systems.dfy ===
/**
 * Systems: a required-component signature and the list of member entities.
 * The list is a plain `std::vector<Entity>`: adding appends without checking
 * for duplicates, and removing erases the element whose *position* equals the
 * entity's ID, whichever entity sits there.
 */
module Systems {
  import opened Faults
  import opened Signatures
  import opened ComponentIds
  import opened Entities

  /** A system type, identified by its name (`std::type_index` in the registry's table). */
  type SystemName = string

  datatype System = System(signature: Signature, entities: seq<Entity>)

  /** A freshly constructed system: no requirement and no members. */
  const NewSystem: System := System(Empty, [])

  /** `System::AddEntity`: appends, even when the entity is already a member. */
  function AddEntity(s: System, e: Entity): (r: System)
    ensures r.signature == s.signature
    ensures |r.entities| == |s.entities| + 1 && r.entities[|s.entities|] == e
    ensures forall i | 0 <= i < |s.entities| :: r.entities[i] == s.entities[i]
    ensures multiset(r.entities)[e] == multiset(s.entities)[e] + 1
  {
    s.(entities := s.entities + [e])
  }

  /**
   * `System::RemoveEntity`: when the list has more than `e.id` elements, the
   * element at position `e.id` is erased and the rest keep their order;
   * otherwise nothing happens. The erased element need not be `e`.
   */
  function RemoveEntity(s: System, e: Entity): (r: System)
    ensures r.signature == s.signature
    ensures |s.entities| <= e.id ==> r == s
    ensures e.id < |s.entities| ==>
      && |r.entities| == |s.entities| - 1
      && (forall i | 0 <= i < e.id :: r.entities[i] == s.entities[i])
      && (forall i | e.id <= i < |r.entities| :: r.entities[i] == s.entities[i + 1])
      && multiset(r.entities) == multiset(s.entities) - multiset{s.entities[e.id]}
  {
    if |s.entities| > e.id then
      var i := e.id;
      assert s.entities == s.entities[..i] + [s.entities[i]] + s.entities[i + 1..];
      s.(entities := s.entities[..i] + s.entities[i + 1..])
    else
      s
  }

  /** Adding the same entity twice leaves it in the list twice. */
  lemma AddEntityTwiceDuplicates(s: System, e: Entity)
    ensures multiset(AddEntity(AddEntity(s, e), e).entities)[e] == multiset(s.entities)[e] + 2
  {
  }

  /** Removing an entity can take another one out of the list and leave the entity itself in. */
  lemma RemoveEntityByPosition()
    ensures RemoveEntity(System(Empty, [Entity(0), Entity(1)]), Entity(0)).entities == [Entity(1)]
    ensures RemoveEntity(System(Empty, [Entity(1), Entity(0)]), Entity(0)).entities == [Entity(0)]
    ensures RemoveEntity(System(Empty, [Entity(1)]), Entity(1)).entities == [Entity(1)]
  {
  }

  /**
   * `RequireComponent<T>()`: asks for T's ID (registering T if new) and sets
   * that bit of the system's signature; `bitset::set` throws when the ID is
   * outside the width. Other bits and the member list are kept.
   */
  function RequireComponent(types: TypeIds, s: System, k: ComponentName): (r: Result<(TypeIds, System)>)
    ensures r.Ok? <==> GetId(types, k).0 < MaxNumComponentTypes
    ensures r.Ok? ==>
      && r.value.0 == GetId(types, k).1
      && Bits(r.value.1.signature) == Bits(s.signature) + {GetId(types, k).0}
      && r.value.1.entities == s.entities
  {
    var issued := GetId(types, k);
    if issued.0 < MaxNumComponentTypes then Ok((issued.1, s.(signature := Set(s.signature, issued.0))))
    else Err(BitOutOfRange)
  }

  /** Every ID in `ids` names a bit of the signature. */
  predicate AllFit(ids: seq<nat>) {
    forall i | 0 <= i < |ids| :: ids[i] < MaxNumComponentTypes
  }

  lemma AllFitSnoc(ids: seq<nat>, id: nat)
    ensures AllFit(ids + [id]) <==> AllFit(ids) && id < MaxNumComponentTypes
  {
    if AllFit(ids) && id < MaxNumComponentTypes {
      forall i | 0 <= i < |ids| + 1 ensures (ids + [id])[i] < MaxNumComponentTypes {
        if i < |ids| {
          assert (ids + [id])[i] == ids[i];
        }
      }
    }
    if AllFit(ids + [id]) {
      assert (ids + [id])[|ids|] == id;
      forall i | 0 <= i < |ids| ensures ids[i] < MaxNumComponentTypes {
        assert (ids + [id])[i] == ids[i];
      }
    }
  }

  /**
   * A system's constructor: a `NewSystem` followed by one
   * RequireComponent call per required type, in order. It succeeds exactly
   * when every required type's ID fits the signature, and then requires
   * exactly the IDs those calls hand out.
   */
  function Construct(types: TypeIds, required: seq<ComponentName>): (r: Result<(TypeIds, System)>)
    ensures r.Ok? <==> AllFit(IssueAll(types, required).0)
    ensures r.Ok? ==>
      && r.value.0 == IssueAll(types, required).1
      && Bits(r.value.1.signature) == Elems(IssueAll(types, required).0)
      && r.value.1.entities == []
    decreases |required|
  {
    if required == [] then
      assert Bits(Empty) == {};
      Ok((types, NewSystem))
    else
      var p := required[..|required| - 1];
      var k := required[|required| - 1];
      var before := IssueAll(types, p);
      var ids := IssueAll(types, required).0;
      assert ids == before.0 + [GetId(before.1, k).0];
      assert Elems(ids) == Elems(before.0) + {GetId(before.1, k).0};
      AllFitSnoc(before.0, GetId(before.1, k).0);
      match Construct(types, p)
      case Err(f) => Err(f)
      case Ok(built) => RequireComponent(built.0, built.1, k)
  }
}
